=== FILE: README.md ===
# Incremental font transfer client test generators, modelled in Dafny

This project models the core of the W3C incremental font transfer (IFT)
client test suite generators and its proof-of-concept client page:

- **The test-case registry** of `ClientTestCaseGenerator.py` (module `Registry`). `writeTest` runs the fixture builder first. It then rejects a duplicate identifier, title or description. Next it records the three keys. Last, it appends the case to the bucket of its group tag, the part of the identifier before the first `-`.
- **What the generator derives from the registry** (module `Emitters`):
  - the tab-separated `manifest.txt`, one line per case in group-declaration order and then insertion order, with the links field forced onto the `#TableDirectory` chapter;
  - the `ClientTestFonts.zip` loop, which visits the `*.?t?` files and aborts at the first whose extension is not a font extension, after the earlier files were already written to the archive;
  - the report of font files on disk whose identifier was never registered.
- **The one IFT fixture and the two patch scripts** (module `IftPatch`). Each loads a font and requires its `IFT ` table. It overwrites the first byte of the raw table data (the `format` field) with 3. The `ift.py` and `updateIFTFont.py` scripts then save the font and read the field back; `makeFormat3IFT` instead copies the `*_gk`/`*_tk` resource files and returns the patched table data. Module `Generator` runs the generator's single `writeTest` call with that builder and shows what the registry and the manifest then hold. It then runs the steps after it in the script's order: the archive, the manifest and the unknown-file report. A `writeTest` exception or a failed archive assertion ends the run before the later steps, so no manifest is written then.
- **The three fallback-font builders** (module `FallbackFont`). Each:
  - checks its command-line mode;
  - keeps the glyphs needed to spell PASS and FAIL;
  - renames name records 1, 4 and 6 to `RobotoFallback` plus the capitalized mode, and record 2 to `Regular`;
  - creates GSUB only when it is absent;
  - adds `liga` rules that turn one letter into a word, with the pass and fail words swapped according to the mode.
- **The client page `client/poc.js`** (module `Client`):
  - the font path and family of each result element;
  - the loop that collects the UTF-16 code points of the text until `codePointAt` is 0 or undefined, keeping first occurrences in order;
  - the axes map;
  - the per-font patching state, created once per font id, and the requests made of it;
  - the font-face descriptor chosen from the font id: Roboto before NotoSerif before NotoSans.
- **Support modules**:
  - `Paths`: the POSIX `os.path.dirname`, `join`, `basename` and `splitext` the scripts use, plus the repository directories of `paths.py`;
  - `Text`: Python `str.split`, `join` and `rfind`, and JavaScript `includes`;
  - `Listing`: `glob.glob` over a directory listing;
  - `Results`: `Option` and `Result`.

Exceptions are modelled as error values: `ValueError`, `IndexError`, `AssertionError`, `KeyError`, the duplicate asserts and `sys.exit(1)`. Where an exception leaves partial effects behind, the error value carries them: the keys `writeTest` already recorded, and the archive entries already written.

## Model

| member | source | states |
|---|---|---|
| Registry.Init | generators/ClientTestCaseGenerator.py:95-98 | the registry starts with one empty bucket per declared group tag and nothing registered |
| Registry.InitValid | generators/ClientTestCaseGenerator.py:95-106 | the starting registry satisfies the registry invariant: buckets exactly for the declared tags, each case in its tag's bucket, keys recorded and unique |
| Registry.DeclaredGroupsDistinct | generators/ClientTestCaseGenerator.py:88-93 | the three declared groups have distinct tags |
| Registry.WriteTest | generators/ClientTestCaseGenerator.py:108-160 | a failing builder, then a duplicate identifier, title or description (in that order) fails with the registry unchanged. Otherwise the three keys are recorded. An undeclared tag then fails with only the keys recorded. A declared tag gets the case, with its expanded spec link, appended to the end of its bucket, and every other bucket is unchanged. The result is written exactly when all of these checks pass |
| Registry.WriteTestPreservesValid | generators/ClientTestCaseGenerator.py:141-160 | every outcome of `writeTest`, success or exception, leaves a registry satisfying the invariant |
| Registry.AppendKeepsValid | generators/ClientTestCaseGenerator.py:144-160 | appending a case with fresh keys to its tag's bucket keeps cases unique and in the right bucket |
| Registry.RewriteRejected | generators/ClientTestCaseGenerator.py:141 | once a case is written, writing the same identifier again fails as a duplicate and changes nothing |
| Registry.UnknownGroupRecordsKeys | generators/ClientTestCaseGenerator.py:144-152 | a case whose tag is not declared fails after its keys were recorded, so the same identifier is afterwards rejected as a duplicate |
| Registry.GroupTag | generators/ClientTestCaseGenerator.py:151 | the group tag of an identifier. `Text.BeforeFirst` states that it is the longest prefix without `-`, and `Generator.FixtureTag` gives the fixture's tag |
| Registry.AllCases | generators/ClientTestCaseGenerator.py:249-250 | the listing of all cases has as many entries as the declared groups' buckets hold |
| Registry.CasesAfterAppend | generators/ClientTestCaseGenerator.py:249-250 | appending to the bucket of one group inserts the case right after the cases of that group and the groups before it; the order of every other case is kept |
| Registry.WrittenInsertsCase | generators/ClientTestCaseGenerator.py:152-160 | a successful `writeTest` keeps the invariant and inserts exactly its new case into the listing at that position |
| Text.Join | generators/ClientTestCaseGenerator.py:275 | `str.join` with a one-character separator. `JoinSplit`, `SplitJoin` and `JoinEndsLikeLast` state it as the inverse of `Split` |
| Text.Split | generators/ClientTestCaseGenerator.py:151 | `str.split` with a one-character separator always yields at least one piece |
| Text.SplitJoin | generators/ClientTestCaseGenerator.py:275 | splitting a newline-join of separator-free pieces gives back the pieces |
| Text.JoinSplit | generators/ClientTestCaseGenerator.py:254 | joining the pieces of a split gives back the text |
| Text.SplitPiecesFree | generators/ClientTestCaseGenerator.py:254 | no piece of a split contains the separator |
| Text.BeforeFirst | generators/ClientTestCaseGenerator.py:151 | `split(c)[0]` is the longest prefix free of `c`: either the whole text or followed by `c` |
| Text.BeforeFirstOf | generators/ClientTestCaseGenerator.py:151 | the text before the first `c` of `p + c + y`, for a `c`-free `p`, is `p` |
| Text.AfterLastIsLastSegment | generators/ClientTestCaseGenerator.py:254 | `split(c)[-1]` is the suffix after the last `c`, or all of the text when there is none |
| Text.LastSegmentUnique | generators/ClientTestCaseGenerator.py:254 | the segment after the last separator is unique |
| Text.RFind | generators/testCaseGeneratorLib/paths.py:20 | the index found is the last occurrence of the character, or -1 when there is none |
| Text.Includes | client/poc.js:81 | `String.prototype.includes`. `IncludesIsContains` and `IncludesAt` state that it is true exactly when the word occurs |
| Text.IncludesIsContains | client/poc.js:81 | the left-to-right `includes` search answers true exactly when the word occurs somewhere in the text |
| Text.IncludesAt | client/poc.js:81 | a word occurring at any index is found by `includes` |
| Emitters.Links | generators/ClientTestCaseGenerator.py:254-256 | the links field of a manifest line. `LinksShape`, `LinksWithoutAnchor`, `LinksOfAnchor` and `LinksFree` state it |
| Emitters.LinksShape | generators/ClientTestCaseGenerator.py:254-256 | the links field is `#TableDirectory,#` followed by the segment of the spec link after its last `#` |
| Emitters.LinksWithoutAnchor | generators/ClientTestCaseGenerator.py:254-256 | a spec link without `#` contributes the whole link after the chapter |
| Emitters.LinksOfAnchor | generators/ClientTestCaseGenerator.py:254-256 | a spec link `x#anchor` contributes exactly its last anchor, whatever `x` holds |
| Emitters.LinksFree | generators/ClientTestCaseGenerator.py:254-256 | the links field contains no character absent from the chapter prefix and the spec link |
| Emitters.Line | generators/ClientTestCaseGenerator.py:260-267 | the manifest line of a case. `LineFormat`, `LineFields` and `LineHasNoNewline` state its fields and that it splits back into them |
| Emitters.LineFormat | generators/ClientTestCaseGenerator.py:260-267 | a manifest line is id, empty reference, title, empty flags, links and assertion, separated by tabs |
| Emitters.LineFields | generators/ClientTestCaseGenerator.py:260-267 | for a case without tabs or newlines, splitting its line on tabs gives back exactly the six fields |
| Emitters.LineHasNoNewline | generators/ClientTestCaseGenerator.py:260-267 | such a line contains no newline |
| Emitters.Lines | generators/ClientTestCaseGenerator.py:249-269 | there is one manifest line per case |
| Emitters.LinesAt | generators/ClientTestCaseGenerator.py:249-269 | line `i` of the manifest is the line of case `i` |
| Emitters.LinesRoundTrip | generators/ClientTestCaseGenerator.py:269-275 | splitting the written manifest on newlines gives back the lines, and each line on tabs gives back its case's fields |
| Emitters.LinesNoTrailingNewline | generators/ClientTestCaseGenerator.py:275 | the non-empty manifest text does not end with a newline |
| Emitters.Manifest | generators/ClientTestCaseGenerator.py:247-269 | the manifest lines, one per listed case. `ManifestRoundTrip` and `ManifestAfterWrite` state their contents and order |
| Emitters.ManifestText | generators/ClientTestCaseGenerator.py:275 | the text written to `manifest.txt`. `ManifestRoundTrip` and `EmptyManifest` state that it splits back into the lines and has no trailing newline |
| Emitters.ManifestRoundTrip | generators/ClientTestCaseGenerator.py:247-275 | for a valid registry with at least one case, where no case's fields contain a tab or a newline, the file written splits back into one line per listed case, each splitting back into that case's six fields, with no trailing newline |
| Emitters.EmptyManifest | generators/ClientTestCaseGenerator.py:275 | a registry with no cases writes an empty manifest |
| Emitters.LinesOfInsert | generators/ClientTestCaseGenerator.py:249-269 | inserting a case into the listing inserts its line at the same place |
| Emitters.ManifestAfterWrite | generators/ClientTestCaseGenerator.py:249-269 | after a successful `writeTest` the manifest is the old manifest with the new case's line inserted after the lines of its group and the groups declared before it |
| Emitters.CheckedMap | generators/ClientTestCaseGenerator.py:234-237 | a loop that checks before it processes either processes every element, or stops at an element after processing all those before it |
| Emitters.CheckedMapFinishes | generators/ClientTestCaseGenerator.py:234-237 | the loop finishes exactly when every element passes the check |
| Emitters.CheckedMapStopsAtFirst | generators/ClientTestCaseGenerator.py:234-237 | when it stops, the offending element fails the check and every earlier element passes |
| Emitters.ZipEntries | generators/ClientTestCaseGenerator.py:234-237 | the archive loop over the visited paths. `ZipEntriesAllowed`, `ZipAbortsAtFirst` and `ZipEntriesNamed` state when it completes, where it stops and what it writes |
| Emitters.ZipPaths | generators/ClientTestCaseGenerator.py:233-234 | the paths the archive loop visits. `ZipPathsCover` and `ZipPathsSound` state that they are exactly the listed `*.?t?` names joined to the directory |
| Emitters.ZipEntriesAllowed | generators/ClientTestCaseGenerator.py:234-237 | the archive loop completes exactly when every visited path has a font extension |
| Emitters.ZipAbortsAtFirst | generators/ClientTestCaseGenerator.py:234-237 | an aborted loop names the first path without a font extension; every path before it is allowed and was already written to the archive |
| Emitters.ZipEntriesNamed | generators/ClientTestCaseGenerator.py:237 | each written entry stores its file under the file's basename |
| Emitters.FontFilesMatchZipPattern | generators/ClientTestCaseGenerator.py:233-236 | every non-hidden file with a font extension matches `*.?t?`, so the pattern misses no font |
| Emitters.ZipEntryName | generators/ClientTestCaseGenerator.py:235-237 | a font file in the test directory passes the check and is archived under its own file name |
| Emitters.ZipPathsCover | generators/ClientTestCaseGenerator.py:233-234 | every listed name matching `*.?t?` is visited |
| Emitters.ZipPathsSound | generators/ClientTestCaseGenerator.py:233-234 | every visited path is a listed name matching `*.?t?`, joined to the test directory |
| Emitters.FilesOnDisk | generators/ClientTestCaseGenerator.py:282-286 | the `.otf`, then `.ttf`, `.otc` and `.ttc` matches of the test directory. `FilesOnDiskCover` states that every listed font file is among them, and `Listing.GlobSound` that each part holds only such files |
| Emitters.FileIdentifier | generators/ClientTestCaseGenerator.py:289-290 | the identifier a file stands for. `FileIdentifierOfName` states that for `dir/stem.ext` it is `stem` |
| Emitters.FilesOnDiskCover | generators/ClientTestCaseGenerator.py:282-286 | every listed file ending in one of the four font extensions is among the files checked |
| Emitters.UnknownFiles | generators/ClientTestCaseGenerator.py:288-292 | exactly the files whose identifier is not registered are reported, in listing order |
| Emitters.FileIdentifierOfName | generators/ClientTestCaseGenerator.py:289-290 | the identifier of `dir/stem.ext` is `stem` |
| Emitters.UnknownFileReported | generators/ClientTestCaseGenerator.py:288-292 | a font file `dir/stem.ext` on disk is reported exactly when `stem` is not a registered identifier |
| Listing.Filter | generators/ClientTestCaseGenerator.py:175 | the matches of a pattern are exactly the listed names it accepts, and no more of them |
| Listing.Under | generators/ClientTestCaseGenerator.py:175 | `glob` yields one joined path per matching name |
| Listing.UnderContains | generators/ClientTestCaseGenerator.py:175 | every name is returned joined to the directory |
| Listing.UnderFrom | generators/ClientTestCaseGenerator.py:175 | every returned path comes from a listed name |
| Listing.Glob | generators/ClientTestCaseGenerator.py:175 | `glob` of `dir/*suffix`. `GlobCover` and `GlobSound` state that it finds exactly the listed non-hidden names with the suffix, joined to the directory |
| Listing.GlobCover | generators/ClientTestCaseGenerator.py:175 | every listed, non-hidden name ending in the pattern's suffix is found |
| Listing.GlobSound | generators/ClientTestCaseGenerator.py:175 | everything found is such a name joined to the directory |
| Paths.RStrip | generators/testCaseGeneratorLib/paths.py:20 | stripping trailing slashes never lengthens the path |
| Paths.Dirname1 | generators/testCaseGeneratorLib/paths.py:20 | one `os.path.dirname` step never lengthens the path |
| Paths.Dirname | generators/testCaseGeneratorLib/paths.py:7-21 | `dirname(path, depth)` is `depth` single `os.path.dirname` steps. `DirnameZero`, `DirnameDefaultDepth`, `DirnameAdditive`, `DirnameThreeSteps` and `DirnameDocExamples` state its values |
| Paths.DirnameZero | generators/testCaseGeneratorLib/paths.py:19-21 | a depth of zero or less leaves the path unchanged, as `range(depth)` is empty |
| Paths.DirnameDefaultDepth | generators/testCaseGeneratorLib/paths.py:7 | the default depth is one `os.path.dirname` step |
| Paths.DirnameAdditive | generators/testCaseGeneratorLib/paths.py:19-21 | `dirname` by `a + b` levels is `dirname` by `a` levels, then by `b` |
| Paths.DirnameOfChild | generators/testCaseGeneratorLib/paths.py:20 | the dirname of `q/name` is `q` for a slash-free name and a `q` without trailing slash |
| Paths.DirnameOfRootChild | generators/testCaseGeneratorLib/paths.py:20 | the dirname of `/name` is the root |
| Paths.DirnameDocExamples | generators/testCaseGeneratorLib/paths.py:9-17 | the four docstring examples hold |
| Paths.Join | generators/testCaseGeneratorLib/paths.py:27 | an absolute second part replaces the first; otherwise the parts are joined with exactly one `/`; the result ends like a non-empty second part |
| Paths.DirnameOfJoin | generators/testCaseGeneratorLib/paths.py:27 | `dirname` undoes `join` with a single relative component |
| Paths.MainDirectory | generators/testCaseGeneratorLib/paths.py:23-24 | depth 1 then depth 2 is `dirname` by 3 levels |
| Paths.MainDirectoryIsRepositoryRoot | generators/testCaseGeneratorLib/paths.py:23-24 | with the module at `generators/testCaseGeneratorLib/paths.py`, the main directory is the repository root |
| Paths.DirnameThreeSteps | generators/testCaseGeneratorLib/paths.py:19-21 | three levels are three single steps |
| Paths.Basename | generators/ClientTestCaseGenerator.py:237 | `os.path.basename`. `BasenameIsLastSegment` and `BasenameOfChild` state that it is the segment after the last `/` |
| Paths.Ext | generators/ClientTestCaseGenerator.py:235 | the extension `os.path.splitext` gives. `ExtIsLastDotSegment` and `ExtOfName` state it |
| Paths.BasenameIsLastSegment | generators/ClientTestCaseGenerator.py:237 | the basename is the segment after the last `/` |
| Paths.BasenameOfChild | generators/ClientTestCaseGenerator.py:289 | the basename of `dir/name` is `name` for a slash-free name |
| Paths.ExtIsLastDotSegment | generators/ClientTestCaseGenerator.py:235 | the `splitext` extension is empty or a `.` followed by the text after the last dot of the path |
| Paths.ExtOfName | generators/ClientTestCaseGenerator.py:235 | the extension of `dir/stem.ext` is `.ext` |
| IftPatch.SetFormat | generators/ift.py:21-27 | writing the format byte fails on empty data (the `IndexError`); otherwise byte 0 becomes 3 and the length and every other byte are kept |
| IftPatch.PatchFont | generators/ift.py:16-27 | a font without an `IFT ` table fails with the `ValueError`, and one with empty table data with the `IndexError`. Otherwise the patched font has the same tables, every other table unchanged, and the `IFT ` data with its format byte set |
| IftPatch.PatchedFormatReadsBack | generators/ift.py:33-35 | reading the format field of the patched font gives 3, and the rest of the table is unchanged |
| IftPatch.FormatField | generators/ift.py:33-35 | the `format` field read from the `IFT ` table, if there is one. `PatchSucceeds`, `PatchedFormatReadsBack` and `PatchFixedPoint` relate it to the patch |
| IftPatch.PatchSucceeds | generators/ift.py:16-24 | the patch succeeds exactly when the font has a non-empty `IFT ` table |
| IftPatch.PatchIdempotent | generators/ift.py:20-27 | patching a patched font changes nothing |
| IftPatch.PatchFixedPoint | generators/ift.py:20-27 | the patch leaves a font unchanged exactly when its format field is already 3 |
| IftPatch.PatchAndSave | generators/ift.py:14-35 | the script fails exactly when there is no format field to patch, with the patch's own error (`ValueError` for a missing table, `IndexError` for an empty one); otherwise the patched font is saved to the output path and reads back format 3 |
| IftPatch.IftScript | generators/ift.py:10-35 | `ift.py` patches `IFTSourcePath`. It fails exactly when the patch fails, with the same error. Otherwise it saves the patched font and reads back 3 |
| IftPatch.IftScriptOutput | generators/ift.py:10-13 | the file written is `myfont-mod.ift.otf` directly inside the placeholder test directory |
| IftPatch.UpdateIftFont | updateIFTFont.py:3-27 | the script reads `myfont.ift.ttf`. It fails exactly when the patch fails, with the same error: a missing table is a `ValueError` and an empty one an `IndexError`. Otherwise it writes the patched font to `myfont-mod.ift.otf` and reads back 3 |
| IftPatch.CopiesInto | generators/ClientTestCaseGenerator.py:174-176 | one copy per file found |
| IftPatch.CopiesIntoAt | generators/ClientTestCaseGenerator.py:176 | copy `i` takes file `i` into the test directory under its basename |
| IftPatch.MakeFormat3Ift | generators/ClientTestCaseGenerator.py:163-195 | the builder works in `IFT/conform-format1-valid-format-number`; it fails exactly when the source font has no format field; on success it returns the patched `IFT ` data |
| IftPatch.Format3Data | generators/ClientTestCaseGenerator.py:186-195 | the returned data has format 3 and otherwise the source table's length and bytes |
| IftPatch.Format3CopiesKeyFiles | generators/ClientTestCaseGenerator.py:173-176 | every `*_gk` and `*_tk` resource file is copied into the test directory under its own name, whether or not the patch then succeeds |
| Generator.BuilderOutcome | generators/ClientTestCaseGenerator.py:140 | `func()` counts as a failure exactly when the patch raised |
| Generator.FixtureTag | generators/ClientTestCaseGenerator.py:151 | `tabledata-dsig-001` belongs to the `tabledata` group |
| Generator.GenerateRegistry | generators/ClientTestCaseGenerator.py:197-205 | the registry after the script's one `writeTest` call. `GenerateRegistryOutcome`, `GenerateRegistryListing` and `GeneratedManifest` state it |
| Generator.GenerateRegistryOutcome | generators/ClientTestCaseGenerator.py:197-205 | the script registers its case exactly when the IFT source font has a non-empty `IFT ` table, and otherwise stops with the builder's exception; the registry keeps its invariant either way |
| Generator.GenerateRegistryListing | generators/ClientTestCaseGenerator.py:197-205 | when registered, the listing holds that one case, with `shouldConvert` true and the expanded spec link |
| Generator.GeneratedManifest | generators/ClientTestCaseGenerator.py:247-275 | the manifest text of the registry is then that case's line alone |
| Generator.FinishScript | generators/ClientTestCaseGenerator.py:225-292 | after `writeTest` the script archives the test fonts, then writes the manifest, then reports unknown files. A `writeTest` exception or a failed archive assertion stops it before the later steps. `FinishScriptCompletes`, `StrayFileStopsScript` and `FinishScriptOutputs` state this |
| Generator.FinishScriptCompletes | generators/ClientTestCaseGenerator.py:233-275 | after `writeTest`, the manifest is written exactly when the case was registered and every file the archive loop visits has a font extension |
| Generator.StrayFileStopsScript | generators/ClientTestCaseGenerator.py:233-237 | a listed file matching `*.?t?` without a font extension stops the script in the archive step, before the manifest. The stop names the first such file visited, and the files before it are already archived |
| Generator.FinishScriptOutputs | generators/ClientTestCaseGenerator.py:233-292 | a completed run archived every visited file under its basename, wrote the registry's manifest, and reported exactly the font files whose identifier was not recorded |
| Generator.RunScript | generators/ClientTestCaseGenerator.py:197-292 | the whole script from `writeTest` on. `RunScriptCompletes` and `RunScriptOutputs` state when it reaches the manifest and what it writes |
| Generator.RunScriptCompletes | generators/ClientTestCaseGenerator.py:197-275 | the whole script reaches the manifest exactly when the IFT source font has a format field and every visited archive file has a font extension |
| Generator.RunScriptOutputs | generators/ClientTestCaseGenerator.py:247-292 | a completed script writes the fixture's line as the whole manifest, and it reports a font file exactly when the file's identifier is not `tabledata-dsig-001` |
| Generator.RegisteredIdentifiers | generators/ClientTestCaseGenerator.py:141-146 | a registered fixture leaves its identifier as the only one recorded |
| FallbackFont.ParseMode | generators/makeSubsettedFont.py:18-22 | the mode is `argv[1]` exactly when there is one and it is allowed; otherwise the usage message and exit code 1 |
| FallbackFont.LowerAll | generators/makeSubsettedFont.py:54 | lower-casing keeps the length |
| FallbackFont.Capitalize | generators/makeSubsettedFont.py:54 | `str.capitalize` on ASCII. `CapitalizeShape` and `CapitalizeIdempotent` state it |
| FallbackFont.FamilyName | generators/makeSubsettedFont.py:54 | `RobotoFallback` followed by the capitalized mode. `FamilyNamesOfModes` states the four names |
| FallbackFont.CapitalizeShape | generators/makeSubsettedFont.py:54 | `capitalize` keeps the length, upper-cases the first character and lower-cases the rest |
| FallbackFont.CapitalizeIdempotent | generators/makeSubsettedFont.py:54 | capitalizing twice is capitalizing once |
| FallbackFont.FamilyNamesOfModes | generators/makeSubsettedFont.py:54 | the four modes give `RobotoFallbackIft`, `RobotoFallbackFallback`, `RobotoFallbackPass` and `RobotoFallbackFail` |
| FallbackFont.RenameRecords | generators/makeSubsettedFont.py:63-68 | the same records in the same order with IDs and encodings kept: IDs 1, 4 and 6 get the new name, ID 2 gets `Regular`, all others are unchanged |
| FallbackFont.RenameIdempotent | generators/makeSubsettedFont.py:63-68 | renaming twice with one name is renaming once |
| FallbackFont.RulesFor | generators/makeSubsettedFont.py:76-89 | the pass mode gets `P → PASS, F → FAIL`, every other mode the swapped rules |
| FallbackFont.Substitute | generators/makeSubsettedFont.py:92 | a glyph no rule names is left alone |
| FallbackFont.SubstituteFirst | generators/makeSubsettedFont.py:92 | a named glyph gets the output of the first rule naming it |
| FallbackFont.Shape | generators/makeSubsettedFont.py:92 | an empty run shapes to nothing |
| FallbackFont.ShapeAppend | generators/makeSubsettedFont.py:92 | shaping a concatenation shapes each part |
| FallbackFont.ShapeUntouched | generators/makeSubsettedFont.py:92 | a run with no named glyph is unchanged |
| FallbackFont.RulesSpell | generators/makeSubsettedFont.py:76-89 | the pass rules turn P into PASS and F into FAIL, the fail rules swap the words, and the lower-case rules turn a into pass and b into fail |
| FallbackFont.FailRulesSwapPass | generators/makeSubsettedFont.py:84-89 | under the fail rules each of P and F becomes what the other becomes under the pass rules |
| FallbackFont.Requested | generators/makeSubsettedFont.py:46 | the request lists the kept letters in order, then `.notdef`, then `space` |
| FallbackFont.RequestedExactly | generators/makeSubsettedFont.py:46 | the subsetter is asked for exactly the kept letters, `.notdef` and `space`, and no other glyph |
| FallbackFont.RequestedLetter | generators/makeSubsettedFont.py:46 | every kept letter is requested |
| FallbackFont.RulesUseKeptLetters | generators/makeSubsettedFont.py:34-89 | every glyph the rules of each builder read or write is one of the letters that builder keeps |
| FallbackFont.EnsureGsub | generators/makeSubsettedFont.py:71-72 | afterwards GSUB exists, no table is lost, and GSUB is the only table that may be added |
| FallbackFont.SubsettedFileNames | generators/makeSubsettedFont.py:24-31 | mode `ift` writes `Robotofallback.ttf` and mode `fallback` writes `Roboto.ttf` |
| FallbackFont.MakeSubsettedFont | generators/makeSubsettedFont.py:18-96 | a bad mode exits with the usage. Otherwise the build reads `TTFSourcePath` and writes the subset and final files in the fallback directory. It keeps `AFILPS`, renames to the capitalized mode, adds GSUB only when the font has none (no table lost, no other added), and uses the pass rules exactly for `ift` |
| FallbackFont.SubsettedOutputNames | generators/makeSubsettedFont.py:24-31 | each mode's final file is named as above and differs from the intermediate subset file |
| FallbackFont.MakeFallbackFontPassFail | testCaseGeneratorLib/makeFallbackFont.py:10-84 | a bad mode exits with the usage. Otherwise the build reads `resources/Roboto-Regular.ttf` and writes `out/Roboto-subset-<mode>.ttf`. It keeps `AFILPS`, renames to the capitalized mode, adds GSUB only when the font has none (no table lost, no other added), and uses the pass rules exactly for `pass` |
| FallbackFont.PassFailOutputsDistinct | testCaseGeneratorLib/makeFallbackFont.py:18-19 | the pass and fail builds write different files, neither of them the intermediate file |
| FallbackFont.MakeFallbackFont | makeFallbackFont.py:6-62 | the lower-case build keeps `abfilps`, renames to `RobotoFallback`, adds GSUB only when the font has none (no table lost, no other added), and turns a into pass and b into fail |
| FallbackFont.PassBuildIsPageFallback | testCaseGeneratorLib/makeFallbackFont.py:42-77 | the `pass` build names its family `RobotoFallbackPass`, the client page's fallback family, and spells PASS for P |
| Client.TitleFont | client/poc.js:19 | the font path of a test. `TitleFontRoundTrip`, `NamesInjective` and `TitleFontIsGeneratedFile` state it |
| Client.FontName | client/poc.js:21 | the family of a test's font face. `NamesInjective` states that distinct tests get distinct families |
| Client.FamilyList | client/poc.js:22 | the element's font family list. `FamilyListOrder` states its order |
| Client.TitleFontRoundTrip | client/poc.js:19 | the test name is recovered from its font path |
| Client.NamesInjective | client/poc.js:18-21 | different test names load different fonts and register different families |
| Client.TitleFontIsGeneratedFile | client/poc.js:19 | the page loads `myfont-mod.ift.otf`, the file the IFT generator writes, from a directory named after the test |
| Client.FamilyListOrder | client/poc.js:22 | the family list names the test's font first and `RobotoFallbackPass` last |
| Client.CodePointAt | client/poc.js:36-37 | `codePointAt` is undefined exactly past the end. Its value is below 0x110000. At a high surrogate followed by a low one it is the code point the pair encodes. Anywhere else, a lone high surrogate included, it is the code unit itself |
| Client.StopIndex | client/poc.js:36 | the loop stops at the first index whose code point is 0 or undefined, and every earlier one is truthy |
| Client.Visited | client/poc.js:36-37 | the values visited are the code points at the indices before the stop, one per index |
| Client.Dedup | client/poc.js:35-43 | the `Set` read back has no duplicates and holds exactly the values added |
| Client.DedupOrdered | client/poc.js:40-43 | the `Set` yields its values in the order of their first insertion |
| Client.CodePoints | client/poc.js:35-43 | the code points `update_fonts` collects. `CollectCodePoints` computes them by the page's loop, and `DedupOrdered` and `SurrogatePairAt` state their order and contents |
| Client.CollectCodePoints | client/poc.js:35-43 | `cps_array` holds each code point visited before the stop exactly once, in order of first occurrence |
| Client.SurrogatePairVisitedTwice | client/poc.js:36-37 | the text made of one surrogate pair collects the combined code point and then its low surrogate alone |
| Client.SurrogatePairAt | client/poc.js:36-37 | a surrogate pair anywhere before the stop is visited twice: as the combined code point at the high surrogate, and as the low surrogate alone at the next index. Both values are collected, and the loop does not stop between them |
| Client.StopsAtNul | client/poc.js:36 | nothing at or after a NUL code unit is collected |
| Client.SetEntry | client/poc.js:47 | `Map.set` keeps every other key's entry in place and appends a new key at the end |
| Client.SetEntryReplaces | client/poc.js:47 | `Map.set` on a key the map already holds replaces its value in place and adds no entry |
| Client.Axes | client/poc.js:45-48 | the axes map filled from `Object.entries(ds)`. `AxesOfDistinctKeys` states that it is those entries, in order |
| Client.AxesOfDistinctKeys | client/poc.js:45-48 | the axes map of an object's entries (distinct keys) is those entries, in order |
| Client.SelectDescriptor | client/poc.js:80-94 | the font face descriptor chosen from the font id. `SelectDescriptorIsFirstMatch` and `RobotoFirst` state the choice |
| Client.SelectDescriptorIsFirstMatch | client/poc.js:81-94 | the descriptor is that of the first of Roboto, NotoSerif, NotoSans the font id contains, or the empty one |
| Client.RobotoFirst | client/poc.js:81-85 | an id containing `Roboto` always gets the Roboto descriptor, whatever else it contains |
| Client.PatchRequests | client/poc.js:69-77 | the state is asked for each axis as a point, then each feature, then the code points, in that order |
| Client.UpdateFonts | client/poc.js:34-51 | `update_fonts`: collect the code points and the axes, then patch. `StateCreatedOnce` states that two updates of one font share one state |
| Client.PatchCodepoints | client/poc.js:60-95 | a state is created only for a new font id. Other states are untouched. The font's requests are appended to its state. The face has the given family and the descriptor chosen from the id |
| Client.StateCreatedOnce | client/poc.js:61-64 | two updates of one font share one state holding both requests in order |
| Client.UpdateAllFonts | client/poc.js:16-31 | the page styles every result element once, in document order |
| Client.UpdateAllFontsStyles | client/poc.js:18-29 | each element gets its own family list and a face registered under its font name from its own font path |
| Client.UpdateAllFontsStates | client/poc.js:17-27 | afterwards there is exactly one state per distinct font path, added to those that existed |

## Left out

- The output directories `clientDirectory`, `clientTestDirectory`, `clientTestResourcesDirectory` and `fallbackDirectory` are parameters of the model. The scripts import them (generators/ClientTestCaseGenerator.py:25-26, generators/makeSubsettedFont.py:4), but generators/testCaseGeneratorLib/paths.py does not define them. `main` is the `mainDirectory` of `paths.py` and is also a parameter.
- Directory creation, file existence checks, the removal of old files, and the copies of `index.css` and `brotli.js` (generators/ClientTestCaseGenerator.py:34-55, 164-170, 227-229, 271-273): this is file-system effect with no logic.
- `generateClientIndexHTML` and `expandSpecLinks` (module `testCaseGeneratorLib.html`) are not part of this model. `expandSpecLinks` is a function parameter applied to `Option<string>`, where `None` is the omitted `specLink` argument.
- Registry.WriteTest: the `credits` and `flavor` arguments are not stored by the source, so they are not parameters. The `print` calls are left out.
- Loading and saving fonts with fontTools is taken as the identity on the map from table tag to table data: the file format, checksums and table compilation are not modelled. `PatchAndSave` reads its format field back from the saved map.
- The subsetter and the glyph closure it computes, the feature compiler (`addOpenTypeFeaturesFromString`) and the real GSUB lookups are left out. A build records the glyphs asked for, the name records, the table tags and the `liga` rules. `Shape` gives the rules' meaning for single-glyph substitutions.
- Name record encodings are kept as labels. The bytes of `new_name.encode(...)` are not modelled, and `capitalize` is modelled for ASCII only, which covers the four modes.
- The removal of the intermediate subset file and its warning (generators/makeSubsettedFont.py:100-105) are left out.
- The order of a directory listing is a parameter: `glob` returns names in file-system order.
- The zip file's bytes and compression are left out. An entry records the file and its archive name.
- When the archive loop aborts, the model records the entries written so far and that no manifest and no report follow. The archive file that is never closed, and any `manifest.txt` an earlier run left behind, are file-system state and are not modelled.
- client/poc.js: the WebAssembly patching state is left out: the answers of `current_font_subset`, the WOFF2 decoder and the memory buffer. The model records the requests made of each state, in order. The DOM and `async` are also left out: the elements are a sequence of id and text. Axis values are integers; JavaScript numbers are floats. Object entries with integer-like keys are not reordered.
- Client.UpdateAllFonts: every element is styled because promises are not modelled. On the page, a rejected `await p1` (client/poc.js:28) ends the loop, and the elements after it get no style.

=== FILE: client.dfy ===
/**
 The proof-of-concept page script that loads the incremental font transfer
 fonts: for every result element it names the font after the element's test
 name, collects the code points of the text to render, and asks the
 per-font patching state for a subset covering them, registering the
 returned font face under a descriptor chosen from the font id.

 JavaScript strings are sequences of UTF-16 code units. The patching state
 is the WebAssembly client; the model records the requests made of it, in
 order, and leaves its answers out.
 */
module Client {
  import opened Results
  import Text
  import Paths
  import IftPatch

  // ---------------------------------------------------------------------------
  // Names
  // ---------------------------------------------------------------------------

  const FontDirectory := "fonts/ift/"
  const FontNameSuffix := " IFT Font"
  const FallbackFamily := "RobotoFallbackPass"

  /** The font a test's element loads: the patched font file inside the test's directory under `fonts/ift/`. */
  function TitleFont(testName: string): string
  {
    FontDirectory + testName + "/" + IftPatch.OutputName
  }

  /** The family the font face is registered under: the test name followed by ` IFT Font`. */
  function FontName(testName: string): string
  {
    testName + FontNameSuffix
  }

  /** The element's font family list: the test's family first, then the quoted fallback family. */
  function FamilyList(testName: string): string
  {
    FontName(testName) + ", \"" + FallbackFamily + "\""
  }

  /** The test name inside a title font path: strip the directory prefix and the file suffix. */
  function TestNameOfFont(path: string): Option<string>
  {
    var suffix := "/" + IftPatch.OutputName;
    if |path| >= |FontDirectory| + |suffix| && path[..|FontDirectory|] == FontDirectory
       && path[|path| - |suffix|..] == suffix
    then Some(path[|FontDirectory|..|path| - |suffix|])
    else None
  }

  /** The test name is recovered from its title font. */
  lemma TitleFontRoundTrip(testName: string)
    ensures TestNameOfFont(TitleFont(testName)) == Some(testName)
  {
    var suffix := "/" + IftPatch.OutputName;
    var p := TitleFont(testName);
    assert p == FontDirectory + testName + suffix;
    assert p[..|FontDirectory|] == FontDirectory;
    assert p[|p| - |suffix|..] == suffix;
    assert p[|FontDirectory|..|p| - |suffix|] == testName;
  }

  /** Different tests load different fonts, and register different families. */
  lemma NamesInjective(a: string, b: string)
    requires a != b
    ensures TitleFont(a) != TitleFont(b)
    ensures FontName(a) != FontName(b)
  {
    TitleFontRoundTrip(a);
    TitleFontRoundTrip(b);
    assert FontName(a)[..|a|] == a && |FontName(a)| == |a| + |FontNameSuffix|;
    assert FontName(b)[..|b|] == b && |FontName(b)| == |b| + |FontNameSuffix|;
  }

  /** The title font is the file the IFT generator saves, inside the directory named after the test. */
  lemma TitleFontIsGeneratedFile(testName: string)
    requires |testName| > 0 && '/' !in testName
    ensures Paths.Basename(TitleFont(testName)) == IftPatch.OutputName
    ensures Paths.Basename(Paths.Dirname1(TitleFont(testName))) == testName
  {
    var dir := FontDirectory + testName;
    assert TitleFont(testName) == dir + "/" + IftPatch.OutputName;
    IftPatch.OutputNameIsComponent();
    Paths.BasenameOfChild(dir, IftPatch.OutputName);
    Paths.DirnameOfChild(dir, IftPatch.OutputName);
    assert dir == "fonts/ift" + "/" + testName;
    Paths.BasenameOfChild("fonts/ift", testName);
  }

  /** The family list names the test's own font first and the pass fallback last. */
  lemma FamilyListOrder(testName: string)
    ensures var l := FamilyList(testName);
            && l[..|FontName(testName)|] == FontName(testName)
            && l[|l| - |FallbackFamily| - 1..|l| - 1] == FallbackFamily
  {
    var l := FamilyList(testName);
    assert l == FontName(testName) + (", \"" + FallbackFamily + "\"");
  }

  // ---------------------------------------------------------------------------
  // Code points
  // ---------------------------------------------------------------------------

  /** A UTF-16 code unit. */
  type CodeUnit = u: int | 0 <= u < 0x1_0000

  predicate IsHighSurrogate(u: int) { 0xD800 <= u <= 0xDBFF }
  predicate IsLowSurrogate(u: int) { 0xDC00 <= u <= 0xDFFF }

  /** The code point a high and a low surrogate encode together. */
  function Combined(hi: int, lo: int): int
  {
    (hi - 0xD800) * 0x400 + (lo - 0xDC00) + 0x1_0000
  }

  /**
   `text.codePointAt(i)`: undefined past the end; the combined code point
   when a high surrogate at `i` is followed by a low one; else the unit at `i`.
   */
  function CodePointAt(text: seq<CodeUnit>, i: nat): (r: Option<int>)
    ensures r.None? <==> i >= |text|
    ensures r.Some? ==> 0 <= r.value < 0x11_0000
    ensures r.Some? && !IsHighSurrogate(text[i]) ==> r.value == text[i]
    ensures (r.Some? && IsHighSurrogate(text[i]) && i + 1 < |text| && IsLowSurrogate(text[i + 1]))
            ==> r.value == Combined(text[i], text[i + 1])
    ensures (r.Some? && IsHighSurrogate(text[i]) && !(i + 1 < |text| && IsLowSurrogate(text[i + 1])))
            ==> r.value == text[i]
  {
    if i >= |text| then None
    else if IsHighSurrogate(text[i]) && i + 1 < |text| && IsLowSurrogate(text[i + 1])
    then Some(Combined(text[i], text[i + 1]))
    else Some(text[i])
  }

  /** Whether `text.codePointAt(i)` is truthy: defined and not 0. */
  predicate Truthy(text: seq<CodeUnit>, i: nat)
  {
    CodePointAt(text, i).Some? && CodePointAt(text, i).value != 0
  }

  /** The first index from `i` on where `codePointAt` is falsy. */
  function StopFrom(text: seq<CodeUnit>, i: nat): (r: nat)
    requires i <= |text|
    ensures i <= r <= |text| && !Truthy(text, r)
    ensures forall j :: i <= j < r ==> Truthy(text, j)
    decreases |text| - i
  {
    if !Truthy(text, i) then i else StopFrom(text, i + 1)
  }

  /** Where the collection loop stops: the first falsy index. */
  function StopIndex(text: seq<CodeUnit>): (r: nat)
    ensures r <= |text| && !Truthy(text, r)
    ensures forall j :: 0 <= j < r ==> Truthy(text, j)
  {
    StopFrom(text, 0)
  }

  /** The values `codePointAt` returns before the loop stops, one per index. */
  function Visited(text: seq<CodeUnit>): (r: seq<int>)
    ensures |r| == StopIndex(text)
    ensures forall j :: 0 <= j < |r| ==> Some(r[j]) == CodePointAt(text, j)
  {
    var n := StopIndex(text);
    seq(n, j requires 0 <= j < n => CodePointAt(text, j).value)
  }

  /** No element occurs twice. */
  predicate NoDup<T(==)>(s: seq<T>)
  {
    forall j, k :: 0 <= j < k < |s| ==> s[j] != s[k]
  }

  /** A JavaScript `Set` filled in order and read back: first occurrences, in order. */
  function Dedup<T(==,!new)>(s: seq<T>): (r: seq<T>)
    ensures NoDup(r)
    ensures forall x :: x in r <==> x in s
  {
    if |s| == 0 then []
    else
      var d := Dedup(s[..|s| - 1]);
      var x := s[|s| - 1];
      assert forall y :: y in s <==> y in s[..|s| - 1] || y == x by {
        assert s == s[..|s| - 1] + [x];
      }
      if x in d then d else d + [x]
  }

  /** The index of the first occurrence of `x`. */
  function FirstIndex<T(==)>(s: seq<T>, x: T): (i: nat)
    requires x in s
    ensures i < |s| && s[i] == x && x !in s[..i]
  {
    if s[0] == x then 0
    else
      assert x in s[1..] by { var k :| 0 <= k < |s| && s[k] == x; assert s[1..][k - 1] == x; }
      var i := FirstIndex(s[1..], x) + 1;
      assert s[..i] == [s[0]] + s[1..][..i - 1];
      i
  }

  /** The first occurrence in a longer sequence is the first occurrence in its prefix. */
  lemma FirstIndexPrefix<T>(s: seq<T>, x: T, y: T)
    requires y in s
    ensures FirstIndex(s + [x], y) == FirstIndex(s, y)
  {
    var i := FirstIndex(s, y);
    var t := s + [x];
    assert t[i] == y;
    assert t[..i] == s[..i];
  }

  /** An element new to a sequence first occurs where it is appended. */
  lemma FirstIndexLast<T>(p: seq<T>, x: T)
    requires x !in p
    ensures FirstIndex(p + [x], x) == |p|
  {
    var t := p + [x];
    assert t[..|p|] == p;
  }

  /** The elements of `d`, all of them in `s`, appear in `d` in the order they first occur in `s`. */
  ghost predicate InFirstOrder<T>(s: seq<T>, d: seq<T>)
  {
    && (forall j :: 0 <= j < |d| ==> d[j] in s)
    && (forall j, k :: 0 <= j < k < |d| ==> FirstIndex(s, d[j]) < FirstIndex(s, d[k]))
  }

  /** Appending an element does not move the first occurrences of what was there. */
  lemma FirstIndicesKept<T(!new)>(p: seq<T>, x: T)
    ensures var d := Dedup(p);
            forall j :: 0 <= j < |d| ==> FirstIndex(p + [x], d[j]) == FirstIndex(p, d[j]) < |p|
  {
    var d := Dedup(p);
    forall j | 0 <= j < |d|
      ensures FirstIndex(p + [x], d[j]) == FirstIndex(p, d[j]) < |p|
    {
      assert d[j] in d;
      FirstIndexPrefix(p, x, d[j]);
    }
  }

  /** What appending one element does to `Dedup`. */
  lemma DedupAppend<T(!new)>(p: seq<T>, x: T)
    ensures Dedup(p + [x]) == if x in Dedup(p) then Dedup(p) else Dedup(p) + [x]
  {
    var s := p + [x];
    assert s[..|s| - 1] == p;
  }

  /** Appending an element keeps the deduplicated elements in first-occurrence order. */
  lemma DedupSnoc<T(!new)>(p: seq<T>, x: T)
    requires InFirstOrder(p, Dedup(p))
    ensures InFirstOrder(p + [x], Dedup(p + [x]))
  {
    var s := p + [x];
    var d := Dedup(p);
    DedupAppend(p, x);
    FirstIndicesKept(p, x);
    if x !in d {
      FirstIndexLast(p, x);
      var d' := d + [x];
      forall j, k | 0 <= j < k < |d'|
        ensures FirstIndex(s, d'[j]) < FirstIndex(s, d'[k])
      {
        assert d'[j] == d[j];
        if k < |d| {
          assert d'[k] == d[k];
        }
      }
    }
  }

  /** `Dedup` lists the elements in the order of their first occurrence. */
  lemma {:induction false} DedupOrdered<T(!new)>(s: seq<T>)
    ensures InFirstOrder(s, Dedup(s))
  {
    if |s| > 0 {
      var p := s[..|s| - 1];
      assert s == p + [s[|s| - 1]];
      DedupOrdered(p);
      DedupSnoc(p, s[|s| - 1]);
    }
  }

  /** The code points the page collects: the truthy values, each once, in the order first seen. */
  function CodePoints(text: seq<CodeUnit>): seq<int>
  {
    Dedup(Visited(text))
  }

  /** The loop of `update_fonts` that fills the set `cps` and copies it into `cps_array`. */
  method CollectCodePoints(text: seq<CodeUnit>) returns (cps: seq<int>)
    ensures cps == CodePoints(text)
    ensures NoDup(cps)
    ensures InFirstOrder(Visited(text), cps)
    ensures forall x :: x in cps <==> exists i :: 0 <= i < StopIndex(text) && CodePointAt(text, i) == Some(x)
  {
    cps := [];
    var i := 0;
    var v := Visited(text);
    while CodePointAt(text, i).Some? && CodePointAt(text, i).value != 0
      invariant i <= |v|
      invariant cps == Dedup(v[..i])
      decreases |text| - i
    {
      assert i < |v| by { assert Truthy(text, i); }
      var cp := CodePointAt(text, i).value;
      assert v[i] == cp;
      var w := v[..i + 1];
      assert w[..|w| - 1] == v[..i];
      assert w[|w| - 1] == cp;
      if cp !in cps {
        cps := cps + [cp];
      }
      i := i + 1;
    }
    assert i == |v| by { assert !Truthy(text, i); }
    assert v[..i] == v;
    DedupOrdered(v);
    forall x | x in cps
      ensures exists i :: 0 <= i < StopIndex(text) && CodePointAt(text, i) == Some(x)
    {
      var j :| 0 <= j < |Visited(text)| && Visited(text)[j] == x;
    }
    forall x | exists i :: 0 <= i < StopIndex(text) && CodePointAt(text, i) == Some(x)
      ensures x in cps
    {
      var j :| 0 <= j < StopIndex(text) && CodePointAt(text, j) == Some(x);
      assert Visited(text)[j] == x;
    }
  }

  /**
   A surrogate pair is visited twice: at the high surrogate as the combined
   code point and at the low surrogate as that unit alone.
   */
  lemma SurrogatePairVisitedTwice(hi: CodeUnit, lo: CodeUnit)
    requires IsHighSurrogate(hi) && IsLowSurrogate(lo)
    ensures CodePoints([hi, lo]) == [(hi - 0xD800) * 0x400 + (lo - 0xDC00) + 0x1_0000, lo]
  {
    var t: seq<CodeUnit> := [hi, lo];
    assert Truthy(t, 0) && Truthy(t, 1) && !Truthy(t, 2);
    assert StopIndex(t) == 2;
    var v := Visited(t);
    assert v == [(hi - 0xD800) * 0x400 + (lo - 0xDC00) + 0x1_0000, lo];
    assert v[..1] == [v[0]];
    assert Dedup(v[..1]) == [v[0]];
  }

  /**
   Wherever the loop reaches a surrogate pair, it visits it twice: at the
   high surrogate as the combined code point, and at the low surrogate as
   that unit alone; both values are collected.
   */
  lemma SurrogatePairAt(text: seq<CodeUnit>, i: nat)
    requires i + 1 < |text| && i < StopIndex(text)
    requires IsHighSurrogate(text[i]) && IsLowSurrogate(text[i + 1])
    ensures i + 1 < StopIndex(text)
    ensures Visited(text)[i] == Combined(text[i], text[i + 1])
    ensures Visited(text)[i + 1] == text[i + 1]
    ensures Visited(text)[i] in CodePoints(text) && text[i + 1] as int in CodePoints(text)
  {
    assert Truthy(text, i + 1);
    var v := Visited(text);
    assert v[i] in v && v[i + 1] in v;
  }

  /** The loop stops at the first NUL unit: nothing after it is collected. */
  lemma StopsAtNul(text: seq<CodeUnit>, k: nat)
    requires k < |text| && text[k] == 0
    ensures StopIndex(text) <= k
  {
    assert !Truthy(text, k);
  }

  // ---------------------------------------------------------------------------
  // Axes
  // ---------------------------------------------------------------------------

  /** `map.set(tag, value)` on an insertion-ordered map: a new key goes last, an old key keeps its place. */
  function SetEntry<K(==), V>(m: seq<(K, V)>, tag: K, value: V): (r: seq<(K, V)>)
    ensures |m| <= |r| <= |m| + 1
    ensures forall j :: 0 <= j < |m| && m[j].0 != tag ==> r[j] == m[j]
    ensures (forall j :: 0 <= j < |m| ==> m[j].0 != tag) ==> r == m + [(tag, value)]
  {
    if |m| == 0 then [(tag, value)]
    else if m[0].0 == tag then [(tag, value)] + m[1..]
    else [m[0]] + SetEntry(m[1..], tag, value)
  }

  /** Setting a key the map already holds replaces its value in place and adds no entry. */
  lemma {:induction false} SetEntryReplaces<K, V>(m: seq<(K, V)>, tag: K, value: V, j: nat)
    requires j < |m| && m[j].0 == tag
    requires forall k :: 0 <= k < j ==> m[k].0 != tag
    ensures var r := SetEntry(m, tag, value);
            |r| == |m| && r[j] == (tag, value)
  {
    if j > 0 {
      SetEntryReplaces(m[1..], tag, value, j - 1);
    }
  }

  /** The loop filling `axes` from `Object.entries(ds)`. */
  function Axes<K(==), V>(entries: seq<(K, V)>): seq<(K, V)>
  {
    if |entries| == 0 then [] else SetEntry(Axes(entries[..|entries| - 1]), entries[|entries| - 1].0, entries[|entries| - 1].1)
  }

  /** The keys of an entry list. */
  function Keys<K, V>(m: seq<(K, V)>): seq<K>
  {
    seq(|m|, j requires 0 <= j < |m| => m[j].0)
  }

  /** Entries of an object have distinct keys, so the map holds them as they are, in order. */
  lemma {:induction false} AxesOfDistinctKeys<K, V>(entries: seq<(K, V)>)
    requires NoDup(Keys(entries))
    ensures Axes(entries) == entries
  {
    if |entries| > 0 {
      var p := entries[..|entries| - 1];
      assert Keys(p) == Keys(entries)[..|entries| - 1];
      AxesOfDistinctKeys(p);
      var e := entries[|entries| - 1];
      forall j | 0 <= j < |p|
        ensures p[j].0 != e.0
      {
        assert Keys(entries)[j] == p[j].0 && Keys(entries)[|entries| - 1] == e.0;
      }
      assert entries == p + [e];
    }
  }

  // ---------------------------------------------------------------------------
  // Patching state
  // ---------------------------------------------------------------------------

  /** A request made of a patching state. */
  datatype Request =
    | DesignSpace(tag: string, start: int, end: int)
    | Feature(tag: string)
    | AddCodepoints(codepoints: seq<int>)

  /** The patching state of one font: its id and the requests made of it, in order. */
  datatype IftState = IftState(fontId: string, requests: seq<Request>)

  /** The font-face descriptor. */
  datatype Descriptor = Descriptor(weight: Option<string>, stretch: Option<string>)

  /** The font face `patch_codepoints` loads: family, source font id, descriptor. */
  datatype FontFace = FontFace(family: string, fontId: string, descriptor: Descriptor)

  const RobotoDescriptor := Descriptor(Some("100 900"), Some("75% 100%"))
  const NotoSerifDescriptor := Descriptor(Some("900"), None)
  const NotoSansDescriptor := Descriptor(Some("100 900"), None)
  const NoDescriptor := Descriptor(None, None)

  /** The descriptor chosen from the font id: Roboto, then NotoSerif, then NotoSans. */
  function SelectDescriptor(fontId: string): Descriptor
  {
    if Text.Includes(fontId, "Roboto") then RobotoDescriptor
    else if Text.Includes(fontId, "NotoSerif") then NotoSerifDescriptor
    else if Text.Includes(fontId, "NotoSans") then NotoSansDescriptor
    else NoDescriptor
  }

  /** The descriptor table in priority order. */
  const DescriptorTable := [("Roboto", RobotoDescriptor), ("NotoSerif", NotoSerifDescriptor), ("NotoSans", NotoSansDescriptor)]

  /** The descriptor of the first table row whose word the font id contains, or none. */
  ghost function FirstMatch(table: seq<(string, Descriptor)>, fontId: string): Descriptor
  {
    if |table| == 0 then NoDescriptor
    else if Text.Contains(fontId, table[0].0) then table[0].1
    else FirstMatch(table[1..], fontId)
  }

  /** The chain of `includes` tests picks the first matching row of the table. */
  lemma SelectDescriptorIsFirstMatch(fontId: string)
    ensures SelectDescriptor(fontId) == FirstMatch(DescriptorTable, fontId)
  {
    Text.IncludesIsContains(fontId, "Roboto");
    Text.IncludesIsContains(fontId, "NotoSerif");
    Text.IncludesIsContains(fontId, "NotoSans");
    var t := DescriptorTable;
    assert t[1..][1..][1..] == [];
    assert FirstMatch(t[1..][1..], fontId)
        == if Text.Contains(fontId, "NotoSans") then NotoSansDescriptor else NoDescriptor;
    assert FirstMatch(t[1..], fontId)
        == if Text.Contains(fontId, "NotoSerif") then NotoSerifDescriptor else FirstMatch(t[1..][1..], fontId);
  }

  /** The Roboto descriptor wins whenever the id names Roboto, whatever else it names. */
  lemma RobotoFirst(fontId: string, i: nat)
    requires i + 6 <= |fontId| && fontId[i..i + 6] == "Roboto"
    ensures SelectDescriptor(fontId) == RobotoDescriptor
  {
    Text.IncludesAt(fontId, "Roboto", i);
  }

  /** The requests `patch_codepoints` makes: axes, then features, then the code points. */
  function PatchRequests(cps: seq<int>, features: seq<string>, axes: seq<(string, int)>): (r: seq<Request>)
    ensures |r| == |axes| + |features| + 1
    ensures forall j :: 0 <= j < |axes| ==> r[j] == DesignSpace(axes[j].0, axes[j].1, axes[j].1)
    ensures forall j :: 0 <= j < |features| ==> r[|axes| + j] == Feature(features[j])
    ensures r[|r| - 1] == AddCodepoints(cps)
  {
    seq(|axes|, j requires 0 <= j < |axes| => DesignSpace(axes[j].0, axes[j].1, axes[j].1))
    + seq(|features|, j requires 0 <= j < |features| => Feature(features[j]))
    + [AddCodepoints(cps)]
  }

  /**
   `patch_codepoints`: create the font's state unless one exists, make the
   requests of it, and load a font face with the chosen descriptor.
   */
  function PatchCodepoints(states: map<string, IftState>, fontId: string, fontFace: string,
                           cps: seq<int>, features: seq<string>, axes: seq<(string, int)>)
    : (r: (map<string, IftState>, FontFace))
    ensures r.0.Keys == states.Keys + {fontId}
    ensures forall k :: k in states && k != fontId ==> r.0[k] == states[k]
    ensures fontId in states ==> r.0[fontId] == states[fontId].(requests := states[fontId].requests + PatchRequests(cps, features, axes))
    ensures fontId !in states ==> r.0[fontId] == IftState(fontId, PatchRequests(cps, features, axes))
    ensures r.1 == FontFace(fontFace, fontId, SelectDescriptor(fontId))
  {
    var state := if fontId in states then states[fontId] else IftState(fontId, []);
    var state' := state.(requests := state.requests + PatchRequests(cps, features, axes));
    (states[fontId := state'], FontFace(fontFace, fontId, SelectDescriptor(fontId)))
  }

  /** `update_fonts`: collect the code points and the axes, then patch. */
  function UpdateFonts(states: map<string, IftState>, text: seq<CodeUnit>, fontId: string, fontFace: string,
                       features: seq<string>, ds: seq<(string, int)>): (map<string, IftState>, FontFace)
  {
    PatchCodepoints(states, fontId, fontFace, CodePoints(text), features, Axes(ds))
  }

  /** Two updates of one font reuse its state: both request lists, in order, under the first state. */
  lemma StateCreatedOnce(states: map<string, IftState>, fontId: string, face: string,
                         t1: seq<CodeUnit>, t2: seq<CodeUnit>)
    requires fontId !in states
    ensures var s1 := UpdateFonts(states, t1, fontId, face, [], []).0;
            var s2 := UpdateFonts(s1, t2, fontId, face, [], []).0;
            && s2.Keys == states.Keys + {fontId}
            && s2[fontId] == IftState(fontId, [AddCodepoints(CodePoints(t1)), AddCodepoints(CodePoints(t2))])
  {
    assert Axes<string, int>([]) == [];
    assert PatchRequests(CodePoints(t1), [], []) == [AddCodepoints(CodePoints(t1))];
    assert PatchRequests(CodePoints(t2), [], []) == [AddCodepoints(CodePoints(t2))];
  }

  // ---------------------------------------------------------------------------
  // The page
  // ---------------------------------------------------------------------------

  /** A result element: its id (the test name) and the text of the element with that id. */
  datatype ResultElement = ResultElement(id: string, text: seq<CodeUnit>)

  /** What the page does for one element: the family list it sets and the face it adds. */
  datatype Styled = Styled(id: string, fontFamily: string, face: FontFace)

  /** `update_all_fonts`: every result element in document order. */
  function UpdateAllFonts(states: map<string, IftState>, elements: seq<ResultElement>)
    : (r: (map<string, IftState>, seq<Styled>))
    ensures |r.1| == |elements|
    decreases |elements|
  {
    if |elements| == 0 then (states, [])
    else
      var el := elements[0];
      var (s1, face) := UpdateFonts(states, el.text, TitleFont(el.id), FontName(el.id), [], []);
      var (s2, rest) := UpdateAllFonts(s1, elements[1..]);
      (s2, [Styled(el.id, FamilyList(el.id), face)] + rest)
  }

  /** Each element gets its own family list and a face registered under its font name from its title font. */
  lemma {:induction false} UpdateAllFontsStyles(states: map<string, IftState>, elements: seq<ResultElement>, i: nat)
    requires i < |elements|
    ensures var s := UpdateAllFonts(states, elements).1[i];
            && s.id == elements[i].id
            && s.fontFamily == FamilyList(elements[i].id)
            && s.face.family == FontName(elements[i].id)
            && s.face.fontId == TitleFont(elements[i].id)
    decreases |elements|
  {
    if i > 0 {
      var el := elements[0];
      var s1 := UpdateFonts(states, el.text, TitleFont(el.id), FontName(el.id), [], []).0;
      UpdateAllFontsStyles(s1, elements[1..], i - 1);
    }
  }

  /** The page ends with exactly one state per distinct title font, added to those it had. */
  lemma {:induction false} UpdateAllFontsStates(states: map<string, IftState>, elements: seq<ResultElement>)
    ensures UpdateAllFonts(states, elements).0.Keys == states.Keys + TitleFonts(elements)
    decreases |elements|
  {
    if |elements| > 0 {
      var el := elements[0];
      var s1 := UpdateFonts(states, el.text, TitleFont(el.id), FontName(el.id), [], []).0;
      UpdateAllFontsStates(s1, elements[1..]);
    }
  }

  /** The title fonts of some elements. */
  function TitleFonts(elements: seq<ResultElement>): (r: set<string>)
    ensures forall e :: e in elements ==> TitleFont(e.id) in r
  {
    if |elements| == 0 then {} else {TitleFont(elements[0].id)} + TitleFonts(elements[1..])
  }
}

=== FILE: emitters.dfy ===
/**
 What the generator script derives from the finished registry: the
 tab-separated manifest, the list of zip archive entries guarded by the
 font-extension check, and the report of font files on disk that no
 registered case accounts for.
 */
module Emitters {
  import Text
  import Paths
  import Registry
  import Listing
  import opened Results

  /** The chapter the links field is forced onto. */
  const Chapter := "#TableDirectory,"

  /** The links field: the chapter, then `#` and the anchor of the spec link. */
  function Links(specLink: string): string
  {
    Chapter + "#" + Text.AfterLast(specLink, '#')
  }

  /** The links field is the chapter and `#`, then the segment of the link after its last `#`. */
  lemma LinksShape(specLink: string)
    ensures var r := Links(specLink);
            && |r| >= |Chapter| + 1 && r[..|Chapter| + 1] == Chapter + "#"
            && Text.IsLastSegment(specLink, '#', r[|Chapter| + 1..])
  {
    var r := Links(specLink);
    Text.AfterLastIsLastSegment(specLink, '#');
    assert r[|Chapter| + 1..] == Text.AfterLast(specLink, '#');
  }

  /** A link without `#` contributes the whole link. */
  lemma LinksWithoutAnchor(specLink: string)
    requires '#' !in specLink
    ensures Links(specLink) == Chapter + "#" + specLink
  {
    var r := Links(specLink);
    LinksShape(specLink);
    var a := r[|Chapter| + 1..];
    assert forall k :: 0 <= k < |specLink| ==> specLink[k] != '#';
    assert r == r[..|Chapter| + 1] + a;
  }

  /** A link `x#anchor` contributes exactly its last anchor. */
  lemma LinksOfAnchor(x: string, anchor: string)
    requires '#' !in anchor
    ensures Links(x + "#" + anchor) == Chapter + "#" + anchor
  {
    var r := Links(x + "#" + anchor);
    LinksShape(x + "#" + anchor);
    Text.LastSegmentUnique(x, '#', anchor, r[|Chapter| + 1..]);
    assert r == r[..|Chapter| + 1] + r[|Chapter| + 1..];
  }

  /** A character that is in neither the chapter prefix nor the link is not in the links field. */
  lemma LinksFree(specLink: string, c: char)
    requires c !in Chapter + "#" && c !in specLink
    ensures c !in Links(specLink)
  {
    var r := Links(specLink);
    LinksShape(specLink);
    var a := r[|Chapter| + 1..];
    assert r == (Chapter + "#") + a;
    assert forall k :: 0 <= k < |a| ==> a[k] == specLink[|specLink| - |a| + k];
  }

  /** The six manifest fields of a case: id, reference, title, flags, links, assertion. */
  function Fields(tc: Registry.TestCase): seq<string>
  {
    [tc.identifier, "", tc.title, "", Links(tc.specLink), tc.description]
  }

  /** The manifest line of a case: its six fields separated by tabs. */
  function Line(tc: Registry.TestCase): string
  {
    Text.Join(Fields(tc), '\t')
  }

  /** The text fields of a case hold neither tabs nor newlines. */
  predicate Clean(tc: Registry.TestCase)
  {
    && '\t' !in tc.identifier && '\t' !in tc.title && '\t' !in tc.specLink && '\t' !in tc.description
    && '\n' !in tc.identifier && '\n' !in tc.title && '\n' !in tc.specLink && '\n' !in tc.description
  }

  /** A manifest line is the `"%s\t%s\t%s\t%s\t%s\t%s"` formatting of the six fields. */
  lemma LineFormat(tc: Registry.TestCase)
    ensures Line(tc)
         == tc.identifier + "\t" + "" + "\t" + tc.title + "\t" + "" + "\t" + Links(tc.specLink) + "\t" + tc.description
  {
    JoinSix(tc.identifier, "", tc.title, "", Links(tc.specLink), tc.description, '\t');
  }

  /** The join of six pieces, written out. */
  lemma JoinSix(a: string, b: string, c: string, d: string, e: string, g: string, sep: char)
    ensures Text.Join([a, b, c, d, e, g], sep) == a + [sep] + b + [sep] + c + [sep] + d + [sep] + e + [sep] + g
  {
    var f := [a, b, c, d, e, g];
    var j4 := e + [sep] + g;
    assert Text.Join(f[4..], sep) == j4 by { JoinLast(f, sep); JoinSuffix(f, sep, 4); }
    var j3 := d + [sep] + j4;
    assert Text.Join(f[3..], sep) == j3 by { JoinSuffix(f, sep, 3); }
    var j2 := c + [sep] + j3;
    assert Text.Join(f[2..], sep) == j2 by { JoinSuffix(f, sep, 2); }
    var j1 := b + [sep] + j2;
    assert Text.Join(f[1..], sep) == j1 by { JoinSuffix(f, sep, 1); }
    assert Text.Join(f, sep) == a + [sep] + j1 by {
      JoinSuffix(f, sep, 0);
      assert f[0..] == f;
    }
    var p0 := a + [sep];
    var p1 := p0 + b + [sep];
    var p2 := p1 + c + [sep];
    var p3 := p2 + d + [sep];
    Regroup(p0, b, [sep], j2);
    Regroup(p1, c, [sep], j3);
    Regroup(p2, d, [sep], j4);
    Regroup(p3, e, [sep], g);
  }

  /** Moving a piece and its separator from the right-hand side of a concatenation to the left. */
  lemma Regroup<T>(p: seq<T>, x: seq<T>, s: seq<T>, rest: seq<T>)
    ensures p + (x + s + rest) == p + x + s + rest
  {
  }

  /** The join of a suffix of at least two pieces: its first piece, the separator, the join of the rest. */
  lemma JoinSuffix(parts: seq<string>, c: char, i: nat)
    requires i + 1 < |parts|
    ensures Text.Join(parts[i..], c) == parts[i] + [c] + Text.Join(parts[i + 1..], c)
  {
    assert parts[i..][1..] == parts[i + 1..];
  }

  /** The join of the last piece alone is that piece. */
  lemma JoinLast(parts: seq<string>, c: char)
    requires |parts| > 0
    ensures Text.Join(parts[|parts| - 1..], c) == parts[|parts| - 1]
  {
    assert parts[|parts| - 1..] == [parts[|parts| - 1]];
  }

  /** A clean case's line splits on tabs into exactly its six fields. */
  lemma LineFields(tc: Registry.TestCase)
    requires Clean(tc)
    ensures Text.Split(Line(tc), '\t') == Fields(tc)
    ensures |Text.Split(Line(tc), '\t')| == 6
  {
    LinksFree(tc.specLink, '\t');
    Text.SplitJoin(Fields(tc), '\t');
  }

  /** A joined text avoids every character its pieces and its separator avoid. */
  lemma {:induction false} JoinFree(parts: seq<string>, sep: char, c: char)
    requires c != sep
    requires forall n :: 0 <= n < |parts| ==> c !in parts[n]
    ensures c !in Text.Join(parts, sep)
  {
    if |parts| > 1 {
      JoinFree(parts[1..], sep, c);
      var rest := Text.Join(parts[1..], sep);
      assert Text.Join(parts, sep) == parts[0] + ([sep] + rest);
    }
  }

  /** A clean case's line holds no newline. */
  lemma LineHasNoNewline(tc: Registry.TestCase)
    requires Clean(tc)
    ensures '\n' !in Line(tc)
  {
    LinksFree(tc.specLink, '\n');
    JoinFree(Fields(tc), '\t', '\n');
  }

  /** The manifest lines: one line per case, in the order of the cases. */
  function Lines(cases: seq<Registry.TestCase>): (lines: seq<string>)
    ensures |lines| == |cases|
  {
    Map(cases, Line)
  }

  /** Line `i` of the manifest lines is the line of case `i`. */
  lemma LinesAt(cases: seq<Registry.TestCase>, i: nat)
    requires i < |cases|
    ensures Lines(cases)[i] == Line(cases[i])
  {
    MapAt(cases, Line, i);
  }

  /** `f` applied to every element, in order. */
  function Map<T, U>(s: seq<T>, f: T -> U): (r: seq<U>)
    ensures |r| == |s|
  {
    if |s| == 0 then [] else [f(s[0])] + Map(s[1..], f)
  }

  lemma {:induction false} MapAt<T, U>(s: seq<T>, f: T -> U, i: nat)
    requires i < |s|
    ensures Map(s, f)[i] == f(s[i])
  {
    if i > 0 {
      MapAt(s[1..], f, i - 1);
    }
  }

  /** Indexing a sequence with one element inserted at `k`. */
  lemma InsertAt<T>(s: seq<T>, k: nat, x: T, i: nat)
    requires k <= |s| && i <= |s|
    ensures |s[..k] + [x] + s[k..]| == |s| + 1
    ensures (s[..k] + [x] + s[k..])[i] == if i < k then s[i] else if i == k then x else s[i - 1]
  {
  }

  /** Mapping a sequence with one element inserted inserts its image at the same place. */
  lemma MapInsert<T, U>(s: seq<T>, k: nat, x: T, f: T -> U)
    requires k <= |s|
    ensures Map(s[..k] + [x] + s[k..], f) == Map(s, f)[..k] + [f(x)] + Map(s, f)[k..]
  {
    var t := s[..k] + [x] + s[k..];
    var m := Map(s, f);
    var b := m[..k] + [f(x)] + m[k..];
    var mt := Map(t, f);
    InsertAt(s, k, x, 0);
    InsertAt(m, k, f(x), 0);
    forall i | 0 <= i < |t|
      ensures mt[i] == b[i]
    {
      MapAt(t, f, i);
      InsertAt(s, k, x, i);
      InsertAt(m, k, f(x), i);
      if i < k {
        MapAt(s, f, i);
      } else if i > k {
        MapAt(s, f, i - 1);
      }
    }
    assert mt == b;
  }

  /** The manifest of a registry: the lines of its cases in `allGroups()` order. */
  function Manifest(reg: Registry.Registry): seq<string>
    requires Registry.Valid(reg)
  {
    Lines(Registry.AllCases(reg))
  }

  /** The text written to `manifest.txt`: the lines joined by newlines. */
  function ManifestText(reg: Registry.Registry): string
    requires Registry.Valid(reg)
  {
    Text.Join(Manifest(reg), '\n')
  }

  /** Every case is clean. */
  predicate AllClean(cases: seq<Registry.TestCase>)
  {
    forall i :: 0 <= i < |cases| ==> Clean(cases[i])
  }

  /**
   The newline-join of the lines of some clean cases splits back into those
   lines, and each line splits on tabs into its case's six fields.
   */
  lemma LinesRoundTrip(cases: seq<Registry.TestCase>)
    requires AllClean(cases) && |cases| >= 1
    ensures Text.Split(Text.Join(Lines(cases), '\n'), '\n') == Lines(cases)
    ensures forall i :: 0 <= i < |cases| ==> Text.Split(Lines(cases)[i], '\t') == Fields(cases[i])
  {
    var lines := Lines(cases);
    forall n | 0 <= n < |lines|
      ensures '\n' !in lines[n]
      ensures Text.Split(lines[n], '\t') == Fields(cases[n])
    {
      LinesAt(cases, n);
      LineHasNoNewline(cases[n]);
      LineFields(cases[n]);
    }
    Text.SplitJoin(lines, '\n');
  }

  /** The newline-join of the lines of some clean cases does not end with a newline. */
  lemma LinesNoTrailingNewline(cases: seq<Registry.TestCase>)
    requires AllClean(cases) && |cases| >= 1
    ensures var t := Text.Join(Lines(cases), '\n'); |t| > 0 && t[|t| - 1] != '\n'
  {
    var tc := cases[|cases| - 1];
    LinesAt(cases, |cases| - 1);
    LineFormat(tc);
    LineHasNoNewline(tc);
    var l := Line(tc);
    assert l[|l| - 1] in l;
    Text.JoinEndsLikeLast(Lines(cases), '\n');
  }

  /**
   When some case is registered and all cases are clean, splitting the
   manifest text on newlines gives back one line per case, each line splits
   on tabs into that case's six fields, and the text does not end with a
   newline.
   */
  lemma ManifestRoundTrip(reg: Registry.Registry)
    requires Registry.Valid(reg) && AllClean(Registry.AllCases(reg)) && |Registry.AllCases(reg)| >= 1
    ensures Text.Split(ManifestText(reg), '\n') == Manifest(reg)
    ensures forall i :: 0 <= i < |Manifest(reg)| ==>
              Text.Split(Manifest(reg)[i], '\t') == Fields(Registry.AllCases(reg)[i])
    ensures var t := ManifestText(reg); |t| > 0 && t[|t| - 1] != '\n'
  {
    LinesRoundTrip(Registry.AllCases(reg));
    LinesNoTrailingNewline(Registry.AllCases(reg));
  }

  /** With no registered case the manifest is empty. */
  lemma EmptyManifest(reg: Registry.Registry)
    requires Registry.Valid(reg) && |Registry.AllCases(reg)| == 0
    ensures ManifestText(reg) == ""
  {
  }

  /** The lines of a sequence with one case inserted: the same line inserted. */
  lemma LinesOfInsert(cases: seq<Registry.TestCase>, k: nat, tc: Registry.TestCase)
    requires k <= |cases|
    ensures Lines(cases[..k] + [tc] + cases[k..]) == Lines(cases)[..k] + [Line(tc)] + Lines(cases)[k..]
  {
    MapInsert(cases, k, tc, Line);
  }

  /**
   A successful `writeTest` adds exactly one manifest line, the new case's,
   right after the lines of its group and of the groups declared before it.
   */
  lemma ManifestAfterWrite(
    reg: Registry.Registry, identifier: string, title: string, description: string,
    specLink: Option<string>, shouldConvert: bool, expandSpecLinks: Option<string> -> string, p: nat)
    requires Registry.Valid(reg) && Registry.DistinctTags(reg.groups)
    requires p < |reg.groups| && reg.groups[p].tag == Registry.GroupTag(identifier)
    requires Registry.WriteTest(reg, identifier, title, description, Registry.Built, specLink, shouldConvert, expandSpecLinks).Written?
    ensures var out := Registry.WriteTest(reg, identifier, title, description, Registry.Built, specLink, shouldConvert, expandSpecLinks);
            var k := |Registry.CasesOf(reg.groups[..p + 1], reg.buckets)|;
            var tc := Registry.TestCase(identifier, title, description, shouldConvert, expandSpecLinks(specLink));
            && Registry.Valid(out.reg)
            && k <= |Manifest(reg)|
            && Manifest(out.reg) == Manifest(reg)[..k] + [Line(tc)] + Manifest(reg)[k..]
  {
    Registry.WrittenInsertsCase(reg, identifier, title, description, specLink, shouldConvert, expandSpecLinks, p);
    var k := |Registry.CasesOf(reg.groups[..p + 1], reg.buckets)|;
    var tc := Registry.TestCase(identifier, title, description, shouldConvert, expandSpecLinks(specLink));
    LinesOfInsert(Registry.AllCases(reg), k, tc);
  }

  // ---------------------------------------------------------------------------
  // The zip archive
  // ---------------------------------------------------------------------------

  /** The extensions the archive accepts. */
  const FontExtensions: set<string> := {".otf", ".ttf", ".otc", ".ttc"}

  /** Whether the archive accepts a file: its extension is a font extension. */
  predicate Allowed(path: string)
  {
    Paths.Ext(path) in FontExtensions
  }

  /** An archive member: the file on disk and the name it is stored under. */
  datatype ZipEntry = ZipEntry(path: string, name: string)

  /** The member written for a file: stored under its basename. */
  function Entry(path: string): ZipEntry
  {
    ZipEntry(path, Paths.Basename(path))
  }

  /**
   How a loop that checks each element before processing it ends: every
   element processed, or the check failing at an element after the ones
   before it were already processed.
   */
  datatype Checked<S, T> =
    | Finished(out: seq<T>)
    | Stopped(written: seq<T>, offending: S)

  /** What was processed when the loop ends, either way. */
  function Processed<S, T>(r: Checked<S, T>): seq<T>
  {
    if r.Finished? then r.out else r.written
  }

  /** The checked loop: for each element in order, stop unless `ok` holds, else emit `f` of it. */
  function CheckedMap<S, T>(xs: seq<S>, ok: S -> bool, f: S -> T): (r: Checked<S, T>)
    ensures r.Finished? ==> |r.out| == |xs|
    ensures r.Stopped? ==> |r.written| < |xs| && r.offending == xs[|r.written|]
  {
    if |xs| == 0 then Finished([])
    else if !ok(xs[0]) then Stopped([], xs[0])
    else
      match CheckedMap(xs[1..], ok, f)
      case Finished(e) => Finished([f(xs[0])] + e)
      case Stopped(w, o) => Stopped([f(xs[0])] + w, o)
  }

  /** The loop finishes exactly when every element passes the check. */
  lemma {:induction false} CheckedMapFinishes<S, T>(xs: seq<S>, ok: S -> bool, f: S -> T)
    ensures CheckedMap(xs, ok, f).Finished? <==> forall i :: 0 <= i < |xs| ==> ok(xs[i])
  {
    if |xs| > 0 {
      CheckedMapFinishes(xs[1..], ok, f);
      if CheckedMap(xs, ok, f).Finished? {
        forall i | 0 <= i < |xs|
          ensures ok(xs[i])
        {
          if i > 0 {
            assert xs[1..][i - 1] == xs[i];
          }
        }
      } else if ok(xs[0]) {
        var i :| 0 <= i < |xs[1..]| && !ok(xs[1..][i]);
        assert xs[i + 1] == xs[1..][i];
      }
    }
  }

  /** A stopped loop stops at the first element that fails the check. */
  lemma {:induction false} CheckedMapStopsAtFirst<S, T>(xs: seq<S>, ok: S -> bool, f: S -> T)
    requires CheckedMap(xs, ok, f).Stopped?
    ensures var k := |CheckedMap(xs, ok, f).written|;
            && !ok(xs[k])
            && forall j :: 0 <= j < k ==> ok(xs[j])
  {
    if ok(xs[0]) {
      CheckedMapStopsAtFirst(xs[1..], ok, f);
      var k := |CheckedMap(xs[1..], ok, f).written|;
      assert xs[k + 1] == xs[1..][k];
      forall j | 0 < j < k + 1
        ensures ok(xs[j])
      {
        assert xs[j] == xs[1..][j - 1];
      }
    }
  }

  /** Everything processed is `f` of the element at the same position. */
  lemma {:induction false} CheckedMapAt<S, T>(xs: seq<S>, ok: S -> bool, f: S -> T, i: nat)
    requires i < |Processed(CheckedMap(xs, ok, f))|
    ensures Processed(CheckedMap(xs, ok, f))[i] == f(xs[i])
  {
    if i > 0 {
      CheckedMapAt(xs[1..], ok, f, i - 1);
      assert xs[1..][i - 1] == xs[i];
    }
  }

  /**
   The archive loop over the matched files, in the order given: `assert` the
   extension, then write the member; an `AssertionError` leaves the members
   already written in the archive.
   */
  function ZipEntries(paths: seq<string>): Checked<string, ZipEntry>
  {
    CheckedMap(paths, Allowed, Entry)
  }

  /** The loop archives every file exactly when every extension is a font extension. */
  lemma ZipEntriesAllowed(paths: seq<string>)
    ensures ZipEntries(paths).Finished? <==> forall i :: 0 <= i < |paths| ==> Allowed(paths[i])
  {
    CheckedMapFinishes(paths, Allowed, Entry);
  }

  /**
   An aborted loop fails at the first file whose extension is not a font
   extension, having archived exactly the files before it.
   */
  lemma ZipAbortsAtFirst(paths: seq<string>)
    requires ZipEntries(paths).Stopped?
    ensures var k := |ZipEntries(paths).written|;
            && k < |paths| && ZipEntries(paths).offending == paths[k]
            && !Allowed(paths[k])
            && forall j :: 0 <= j < k ==> Allowed(paths[j])
  {
    CheckedMapStopsAtFirst(paths, Allowed, Entry);
  }

  /** Every member written is the file at the same position, stored under its basename. */
  lemma ZipEntriesNamed(paths: seq<string>, i: nat)
    requires i < |Processed(ZipEntries(paths))|
    ensures Processed(ZipEntries(paths))[i] == ZipEntry(paths[i], Paths.Basename(paths[i]))
  {
    CheckedMapAt(paths, Allowed, Entry, i);
  }

  /** Whether a file name matches the glob `*.?t?` (hidden names excluded). */
  predicate ZipPattern(name: string)
  {
    |name| >= 4 && name[0] != '.' && name[|name| - 4] == '.' && name[|name| - 2] == 't'
  }

  /** The files the archive loop visits: the listing's matches of `*.?t?`. */
  function ZipPaths(dir: string, names: seq<string>): seq<string>
  {
    Listing.Under(dir, Listing.Filter(names, ZipPattern))
  }

  /** Every font file name matches the zip pattern, so no font is left out of the archive. */
  lemma FontFilesMatchZipPattern(stem: string, ext: string)
    requires |stem| > 0 && stem[0] != '.' && ext in FontExtensions
    ensures ZipPattern(stem + ext)
  {
  }

  /** A font file under `dir` is archived under its own file name. */
  lemma ZipEntryName(dir: string, stem: string, ext: string)
    requires |dir| > 0 && dir[|dir| - 1] != '/'
    requires |stem| > 0 && stem[0] != '.' && '/' !in stem && ext in FontExtensions
    ensures var p := Paths.Join(dir, stem + ext);
            ZipEntries([p]) == Finished([ZipEntry(p, stem + ext)])
  {
    var p := Paths.Join(dir, stem + ext);
    assert p == dir + "/" + stem + ext;
    assert ext[0] == '.' && '/' !in ext && '.' !in ext[1..];
    Paths.ExtOfName(dir, stem, ext);
    assert Allowed(p);
    Paths.BasenameOfChild(dir, stem + ext);
    assert Entry(p) == ZipEntry(p, stem + ext);
    assert CheckedMap([p][1..], Allowed, Entry) == Finished([]);
  }

  // ---------------------------------------------------------------------------
  // Unknown files
  // ---------------------------------------------------------------------------

  /** A listed name matching `*.?t?` is visited by the archive loop. */
  lemma ZipPathsCover(dir: string, names: seq<string>, n: string)
    requires n in names && ZipPattern(n)
    ensures Paths.Join(dir, n) in ZipPaths(dir, names)
  {
    Listing.UnderContains(dir, Listing.Filter(names, ZipPattern), n);
  }

  /** Every path the archive loop visits is a listed name matching `*.?t?`, joined to the directory. */
  lemma ZipPathsSound(dir: string, names: seq<string>, p: string)
    requires p in ZipPaths(dir, names)
    ensures exists n :: n in names && ZipPattern(n) && p == Paths.Join(dir, n)
  {
    var kept := Listing.Filter(names, ZipPattern);
    Listing.UnderFrom(dir, kept, p);
    var i :| 0 <= i < |kept| && p == Paths.Join(dir, kept[i]);
    assert kept[i] in kept;
  }

  /** A listed name matching one of the four font globs is among the files on disk. */
  lemma FilesOnDiskCover(dir: string, names: seq<string>, n: string, ext: string)
    requires ext in FontExtensions && n in names && Listing.Matches(n, ext)
    ensures Paths.Join(dir, n) in FilesOnDisk(dir, names)
  {
    Listing.GlobCover(dir, names, n, ext);
  }

  /** The font files on disk: the `.otf`, then `.ttf`, `.otc` and `.ttc` matches. */
  function FilesOnDisk(dir: string, names: seq<string>): seq<string>
  {
    Listing.Glob(dir, names, ".otf") + Listing.Glob(dir, names, ".ttf") + Listing.Glob(dir, names, ".otc") + Listing.Glob(dir, names, ".ttc")
  }

  /** The identifier a font file stands for: its basename up to the first `.`. */
  function FileIdentifier(path: string): string
  {
    Text.BeforeFirst(Paths.Basename(path), '.')
  }

  /** The files reported as unknown: those whose identifier is not registered. */
  function UnknownFiles(paths: seq<string>, registered: set<string>): (r: seq<string>)
    ensures |r| <= |paths|
    ensures forall p :: p in r <==> p in paths && FileIdentifier(p) !in registered
  {
    Listing.Filter(paths, p => FileIdentifier(p) !in registered)
  }

  /** The identifier of `dir/stem.ext` is `stem` when the stem has no slash or dot. */
  lemma FileIdentifierOfName(dir: string, stem: string, ext: string)
    requires '/' !in stem && '.' !in stem
    requires |ext| > 0 && ext[0] == '.' && '/' !in ext
    ensures FileIdentifier(dir + "/" + stem + ext) == stem
  {
    assert dir + "/" + stem + ext == dir + "/" + (stem + ext);
    Paths.BasenameOfChild(dir, stem + ext);
    var s := stem + ext;
    var r := Text.BeforeFirst(s, '.');
    assert s[|stem|] == '.';
    assert forall k :: 0 <= k < |stem| ==> s[k] == stem[k] && s[k] != '.';
  }

  /**
   The file written for a registered case is never reported, and a file whose
   stem is not a registered identifier always is.
   */
  lemma UnknownFileReported(paths: seq<string>, registered: set<string>, dir: string, stem: string, ext: string)
    requires '/' !in stem && '.' !in stem
    requires |ext| > 0 && ext[0] == '.' && '/' !in ext
    requires dir + "/" + stem + ext in paths
    ensures dir + "/" + stem + ext in UnknownFiles(paths, registered) <==> stem !in registered
  {
    FileIdentifierOfName(dir, stem, ext);
  }
}

=== FILE: fallback.dfy ===
/**
 The fallback-font builders: three scripts that subset Roboto to the glyphs
 needed to spell PASS and FAIL, rename the font, make sure it has a GSUB
 table and add a `liga` feature whose rules turn one letter into a word.
 Which word a letter becomes depends on the mode given on the command line,
 so that a page shows PASS exactly when the intended font is in use.

 The subsetter, the feature compiler and the font files are outside the
 model: a script run is described by the glyphs it asks the subsetter to
 keep, the name records it rewrites, the tables of the subset font and the
 substitution rules it compiles into the `liga` feature.
 */
module FallbackFont {
  import opened Results
  import Paths

  // ---------------------------------------------------------------------------
  // Command line
  // ---------------------------------------------------------------------------

  /** The usage message and `sys.exit(1)` of a bad command line. */
  datatype Usage = Usage(message: string, exitCode: int)

  /** The modes of `generators/makeSubsettedFont.py`. */
  const SubsettedModes := ["ift", "fallback"]

  /** The modes of `testCaseGeneratorLib/makeFallbackFont.py`. */
  const PassFailModes := ["pass", "fail"]

  /** Both scripts print the same usage line, naming their own modes. */
  const SubsettedUsage := "Usage: python makeFallbackFont.py [ift|fallback]"
  const PassFailUsage := "Usage: python makeFallbackFont.py [pass|fail]"

  /** `sys.argv[1]` when it is one of the modes, else the usage exit. */
  function ParseMode(argv: seq<string>, modes: seq<string>, usage: string): (r: Result<string, Usage>)
    ensures r.Ok? <==> |argv| >= 2 && argv[1] in modes
    ensures r.Ok? ==> r.value == argv[1]
    ensures r.Err? ==> r.error == Usage(usage, 1)
  {
    if |argv| < 2 || argv[1] !in modes then Err(Usage(usage, 1)) else Ok(argv[1])
  }

  // ---------------------------------------------------------------------------
  // Family name
  // ---------------------------------------------------------------------------

  /** ASCII upper case of one character. */
  function Upper(c: char): char
  {
    if 'a' <= c <= 'z' then (c as int - 32) as char else c
  }

  /** ASCII lower case of one character. */
  function Lower(c: char): char
  {
    if 'A' <= c <= 'Z' then (c as int + 32) as char else c
  }

  /** ASCII lower case of every character. */
  function LowerAll(s: string): (r: string)
    ensures |r| == |s|
  {
    if |s| == 0 then "" else [Lower(s[0])] + LowerAll(s[1..])
  }

  /** Character `i` of the lower-cased text is the lower case of character `i`. */
  lemma {:induction false} LowerAllAt(s: string, i: nat)
    requires i < |s|
    ensures LowerAll(s)[i] == Lower(s[i])
  {
    if i > 0 {
      LowerAllAt(s[1..], i - 1);
    }
  }

  /** `str.capitalize` on ASCII text: the first character upper case, the rest lower case. */
  function Capitalize(s: string): string
  {
    if |s| == 0 then "" else [Upper(s[0])] + LowerAll(s[1..])
  }

  /** Capitalizing keeps the length, upper-cases the first character and lower-cases the others. */
  lemma CapitalizeShape(s: string)
    ensures |Capitalize(s)| == |s|
    ensures |s| > 0 ==> Capitalize(s)[0] == Upper(s[0])
    ensures forall i :: 1 <= i < |s| ==> Capitalize(s)[i] == Lower(s[i])
  {
    forall i | 1 <= i < |s|
      ensures Capitalize(s)[i] == Lower(s[i])
    {
      LowerAllAt(s[1..], i - 1);
    }
  }

  /** Capitalizing twice is capitalizing once. */
  lemma CapitalizeIdempotent(s: string)
    ensures Capitalize(Capitalize(s)) == Capitalize(s)
  {
    var c := Capitalize(s);
    CapitalizeShape(s);
    CapitalizeShape(c);
    forall i | 0 <= i < |c|
      ensures Capitalize(c)[i] == c[i]
    {
    }
  }

  /** The new family name: `RobotoFallback` followed by the capitalized mode. */
  function FamilyName(mode: string): string
  {
    "RobotoFallback" + Capitalize(mode)
  }

  /** The family name of each mode. */
  lemma FamilyNamesOfModes()
    ensures FamilyName("ift") == "RobotoFallbackIft"
    ensures FamilyName("fallback") == "RobotoFallbackFallback"
    ensures FamilyName("pass") == "RobotoFallbackPass"
    ensures FamilyName("fail") == "RobotoFallbackFail"
  {
    FamilyNameOfIft();
    FamilyNameOfFallback();
    FamilyNameOfPass();
    FamilyNameOfFail();
  }

  lemma FamilyNameOfIft()
    ensures FamilyName("ift") == "RobotoFallbackIft"
  {
    CapitalizeShape("ift");
  }

  lemma FamilyNameOfFallback()
    ensures FamilyName("fallback") == "RobotoFallbackFallback"
  {
    assert Capitalize("fallback") == "Fallback" by { CapitalizeShape("fallback"); }
  }

  lemma FamilyNameOfPass()
    ensures FamilyName("pass") == "RobotoFallbackPass"
  {
    CapitalizeShape("pass");
  }

  lemma FamilyNameOfFail()
    ensures FamilyName("fail") == "RobotoFallbackFail"
  {
    CapitalizeShape("fail");
  }

  /** The family name of the unparameterized builder. */
  const PlainFamilyName := "RobotoFallback"

  // ---------------------------------------------------------------------------
  // Name records
  // ---------------------------------------------------------------------------

  /** A record of the `name` table: its name ID, its encoding and its text. */
  datatype NameRecord = NameRecord(nameID: int, encoding: string, text: string)

  /** The name IDs that receive the new name: family, full name, PostScript name. */
  const RenamedIds: set<int> := {1, 4, 6}

  /** The name ID of the subfamily, which receives `Regular`. */
  const SubfamilyId := 2

  /** The rewrite of one record. */
  function RenameRecord(rec: NameRecord, newName: string): NameRecord
  {
    if rec.nameID in RenamedIds then rec.(text := newName)
    else if rec.nameID == SubfamilyId then rec.(text := "Regular")
    else rec
  }

  /** The loop over `name_table.names`, rewriting each record in place. */
  function RenameRecords(records: seq<NameRecord>, newName: string): (r: seq<NameRecord>)
    ensures |r| == |records|
    ensures forall i :: 0 <= i < |records| ==>
              && r[i].nameID == records[i].nameID
              && r[i].encoding == records[i].encoding
              && (records[i].nameID in RenamedIds ==> r[i].text == newName)
              && (records[i].nameID == SubfamilyId ==> r[i].text == "Regular")
              && (records[i].nameID !in RenamedIds && records[i].nameID != SubfamilyId ==> r[i] == records[i])
  {
    seq(|records|, i requires 0 <= i < |records| => RenameRecord(records[i], newName))
  }

  /** Renaming twice with the same name is renaming once. */
  lemma RenameIdempotent(records: seq<NameRecord>, newName: string)
    ensures RenameRecords(RenameRecords(records, newName), newName) == RenameRecords(records, newName)
  {
    var once := RenameRecords(records, newName);
    var twice := RenameRecords(once, newName);
    forall i | 0 <= i < |records|
      ensures twice[i] == once[i]
    {
    }
  }

  // ---------------------------------------------------------------------------
  // Substitution rules
  // ---------------------------------------------------------------------------

  /** A glyph of the `liga` rules, named by its single letter. */
  type Glyph = char

  /** A feature-file substitution rule: one glyph replaced by a sequence of glyphs. */
  datatype Substitution<G> = Sub(glyph: G, output: seq<G>)

  const PassWord := "PASS"
  const FailWord := "FAIL"

  /** The pass mapping: `P` spells out PASS and `F` spells out FAIL. */
  const PassRules := [Sub('P', PassWord), Sub('F', FailWord)]

  /** The swapped mapping: `P` spells out FAIL and `F` spells out PASS. */
  const FailRules := [Sub('P', FailWord), Sub('F', PassWord)]

  /** The lower-case mapping: `a` spells out pass and `b` spells out fail. */
  const LowerCaseRules := [Sub('a', "pass"), Sub('b', "fail")]

  /** The rules compiled for a mode: the pass mapping for `passMode`, the swapped one otherwise. */
  function RulesFor(mode: string, passMode: string): (r: seq<Substitution<Glyph>>)
    ensures mode == passMode ==> r == PassRules
    ensures mode != passMode ==> r == FailRules
  {
    if mode == passMode then PassRules else FailRules
  }

  /** The output of the first rule for a glyph, or the glyph itself when no rule names it. */
  function Substitute<G(==)>(rules: seq<Substitution<G>>, g: G): (r: seq<G>)
    ensures (forall k :: 0 <= k < |rules| ==> rules[k].glyph != g) ==> r == [g]
  {
    if |rules| == 0 then [g]
    else if rules[0].glyph == g then rules[0].output
    else Substitute(rules[1..], g)
  }

  /** A glyph named by some rule gets the output of the first such rule. */
  lemma {:induction false} SubstituteFirst<G>(rules: seq<Substitution<G>>, g: G, k: nat)
    requires k < |rules| && rules[k].glyph == g
    requires forall j :: 0 <= j < k ==> rules[j].glyph != g
    ensures Substitute(rules, g) == rules[k].output
  {
    if k > 0 {
      SubstituteFirst(rules[1..], g, k - 1);
    }
  }

  /** One pass of the feature over a glyph run: every glyph replaced by its substitution. */
  function Shape<G(==)>(rules: seq<Substitution<G>>, run: seq<G>): (r: seq<G>)
    ensures |run| == 0 ==> r == []
  {
    if |run| == 0 then [] else Substitute(rules, run[0]) + Shape(rules, run[1..])
  }

  /** Shaping a concatenation shapes each part. */
  lemma {:induction false} ShapeAppend<G>(rules: seq<Substitution<G>>, a: seq<G>, b: seq<G>)
    ensures Shape(rules, a + b) == Shape(rules, a) + Shape(rules, b)
  {
    if |a| == 0 {
      assert a + b == b;
    } else {
      var head := Substitute(rules, a[0]);
      assert (a + b)[0] == a[0];
      assert (a + b)[1..] == a[1..] + b;
      assert Shape(rules, a + b) == head + Shape(rules, a[1..] + b);
      ShapeAppend(rules, a[1..], b);
      assert head + (Shape(rules, a[1..]) + Shape(rules, b)) == (head + Shape(rules, a[1..])) + Shape(rules, b);
    }
  }

  /** Whether some rule names the glyph. */
  predicate Named<G(==)>(rules: seq<Substitution<G>>, g: G)
  {
    exists k :: 0 <= k < |rules| && rules[k].glyph == g
  }

  /** A run none of whose glyphs a rule names is left as it is. */
  lemma {:induction false} ShapeUntouched<G>(rules: seq<Substitution<G>>, run: seq<G>)
    requires forall i :: 0 <= i < |run| ==> !Named(rules, run[i])
    ensures Shape(rules, run) == run
  {
    if |run| > 0 {
      ShapeUntouched(rules, run[1..]);
      assert !Named(rules, run[0]);
      assert [run[0]] + run[1..] == run;
    }
  }

  /**
   Under the pass rules P reads PASS and F reads FAIL; under the fail rules
   the two words swap; the lower-case rules turn a into pass and b into fail.
   */
  lemma RulesSpell()
    ensures Shape(PassRules, "P") == PassWord && Shape(PassRules, "F") == FailWord
    ensures Shape(FailRules, "P") == FailWord && Shape(FailRules, "F") == PassWord
    ensures Shape(LowerCaseRules, "a") == "pass" && Shape(LowerCaseRules, "b") == "fail"
  {
    ShapeOne(PassRules, 'P');
    ShapeOne(PassRules, 'F');
    ShapeOne(FailRules, 'P');
    ShapeOne(FailRules, 'F');
    ShapeOne(LowerCaseRules, 'a');
    ShapeOne(LowerCaseRules, 'b');
  }

  /** A run of one glyph shapes to that glyph's substitution. */
  lemma ShapeOne<G>(rules: seq<Substitution<G>>, g: G)
    ensures Shape(rules, [g]) == Substitute(rules, g)
  {
    assert Shape(rules, [g][1..]) == [];
    assert Substitute(rules, g) + [] == Substitute(rules, g);
  }

  /** The fail rules give each of P and F what the pass rules give the other. */
  lemma FailRulesSwapPass(g: Glyph)
    requires g == 'P' || g == 'F'
    ensures Substitute(FailRules, g) == Substitute(PassRules, if g == 'P' then 'F' else 'P')
  {
  }

  // ---------------------------------------------------------------------------
  // The scripts
  // ---------------------------------------------------------------------------

  /** A glyph name handed to the subsetter. */
  datatype GlyphName = Letter(c: char) | Notdef | Space

  /** The letters the upper-case builders keep. */
  const UpperCaseLetters := "AFILPS"

  /** The letters the lower-case builder keeps. */
  const LowerCaseLetters := "abfilps"

  /** The glyphs asked of the subsetter: the kept letters, then `.notdef` and the space. */
  function Requested(letters: string): (r: seq<GlyphName>)
    ensures |r| == |letters| + 2
    ensures r[|letters|] == Notdef && r[|letters| + 1] == Space
    ensures forall i :: 0 <= i < |letters| ==> r[i] == Letter(letters[i])
  {
    seq(|letters|, i requires 0 <= i < |letters| => Letter(letters[i])) + [Notdef, Space]
  }

  /** The subsetter is asked for exactly the kept letters, `.notdef` and the space, and no other glyph. */
  lemma RequestedExactly(letters: string)
    ensures forall g: GlyphName :: g in Requested(letters) <==> g == Notdef || g == Space || (g.Letter? && g.c in letters)
  {
    var r := Requested(letters);
    forall g: GlyphName | g.Letter? && g.c in letters
      ensures g in r
    {
      RequestedLetter(letters, g.c);
    }
    forall g | g in r
      ensures g == Notdef || g == Space || (g.Letter? && g.c in letters)
    {
      var i :| 0 <= i < |r| && r[i] == g;
      if i < |letters| {
        assert letters[i] in letters;
      }
    }
  }

  /** Whether every glyph a rule set reads or writes is one of the letters. */
  predicate RulesWithin(rules: seq<Substitution<Glyph>>, letters: string)
  {
    forall k :: 0 <= k < |rules| ==>
      rules[k].glyph in letters && forall j :: 0 <= j < |rules[k].output| ==> rules[k].output[j] in letters
  }

  /** A letter kept is asked of the subsetter. */
  lemma RequestedLetter(letters: string, c: char)
    requires c in letters
    ensures Letter(c) in Requested(letters)
  {
    var i :| 0 <= i < |letters| && letters[i] == c;
    assert Requested(letters)[i] == Letter(c);
  }

  /** Every glyph each builder's rules mention is among the letters it keeps. */
  lemma RulesUseKeptLetters()
    ensures RulesWithin(PassRules, UpperCaseLetters)
    ensures RulesWithin(FailRules, UpperCaseLetters)
    ensures RulesWithin(LowerCaseRules, LowerCaseLetters)
  {
  }

  /** The subset font as reloaded: its name records and its table tags. */
  datatype SubsetFont = SubsetFont(names: seq<NameRecord>, tables: set<string>)

  /** What a builder leaves on disk and what the final font holds. */
  datatype Build = Build(
    inputPath: string,
    subsetPath: string,
    finalPath: string,
    requested: seq<GlyphName>,
    names: seq<NameRecord>,
    tables: set<string>,
    liga: seq<Substitution<Glyph>>)

  /**
   The table tags after the builder adds an empty GSUB table to a font that
   has none. Over a set of tags, keeping an existing GSUB and adding a
   missing one are the same union; the contents of the table are not
   modelled.
   */
  function EnsureGsub(tables: set<string>): (r: set<string>)
    ensures "GSUB" in r && tables <= r && r - tables <= {"GSUB"}
  {
    tables + {"GSUB"}
  }

  /** The common second step: rename, make sure GSUB exists, add the `liga` rules. */
  function Finish(inputPath: string, subsetPath: string, finalPath: string, requested: seq<GlyphName>, font: SubsetFont,
                  newName: string, rules: seq<Substitution<Glyph>>): Build
  {
    Build(inputPath, subsetPath, finalPath, requested, RenameRecords(font.names, newName), EnsureGsub(font.tables), rules)
  }

  /** The suffix of the output file name of `generators/makeSubsettedFont.py`. */
  function FileDescriptor(mode: string): string
  {
    if mode == "ift" then "fallback" else ""
  }

  /** The output file name: `Roboto`, then the mode's descriptor, then `.ttf`. */
  function SubsettedFileName(mode: string): string
  {
    "Roboto" + FileDescriptor(mode) + ".ttf"
  }

  /** The file name of each mode. */
  lemma SubsettedFileNames()
    ensures SubsettedFileName("ift") == "Robotofallback.ttf"
    ensures SubsettedFileName("fallback") == "Roboto.ttf"
  {
  }

  /**
   `generators/makeSubsettedFont.py`: for `ift` write `Robotofallback.ttf`
   with the pass rules, for `fallback` write `Roboto.ttf` with the swapped
   rules, both in the fallback directory and named after the mode.
   */
  function MakeSubsettedFont(argv: seq<string>, main: string, fallbackDir: string, font: SubsetFont): (r: Result<Build, Usage>)
    ensures r.Err? <==> |argv| < 2 || argv[1] !in SubsettedModes
    ensures r.Err? ==> r.error == Usage(SubsettedUsage, 1)
    ensures r.Ok? ==> r.value.inputPath == Paths.TtfSourcePath(main)
    ensures r.Ok? ==> r.value.subsetPath == Paths.Join(fallbackDir, "Roboto-subset.ttf")
    ensures r.Ok? ==> r.value.finalPath == Paths.Join(fallbackDir, SubsettedFileName(argv[1]))
    ensures r.Ok? ==> r.value.requested == Requested(UpperCaseLetters)
    ensures r.Ok? ==> r.value.names == RenameRecords(font.names, FamilyName(argv[1]))
    ensures r.Ok? ==> r.value.tables == EnsureGsub(font.tables)
    ensures r.Ok? ==> r.value.liga == RulesFor(argv[1], "ift")
  {
    match ParseMode(argv, SubsettedModes, SubsettedUsage)
    case Err(u) => Err(u)
    case Ok(mode) =>
      var subsetPath := Paths.Join(fallbackDir, "Roboto-subset.ttf");
      var finalPath := Paths.Join(fallbackDir, SubsettedFileName(mode));
      Ok(Finish(Paths.TtfSourcePath(main), subsetPath, finalPath, Requested(UpperCaseLetters), font, FamilyName(mode), RulesFor(mode, "ift")))
  }

  /** The output file of each mode of `generators/makeSubsettedFont.py`. */
  lemma SubsettedOutputNames(argv: seq<string>, main: string, fallbackDir: string, font: SubsetFont)
    requires MakeSubsettedFont(argv, main, fallbackDir, font).Ok?
    ensures var b := MakeSubsettedFont(argv, main, fallbackDir, font).value;
            && (argv[1] == "ift" ==> b.finalPath == Paths.Join(fallbackDir, "Robotofallback.ttf"))
            && (argv[1] == "fallback" ==> b.finalPath == Paths.Join(fallbackDir, "Roboto.ttf"))
            && b.finalPath != b.subsetPath
  {
    var name := SubsettedFileName(argv[1]);
    SubsettedFileNames();
    assert |name| != |"Roboto-subset.ttf"| && name[0] == 'R';
    JoinDistinct(fallbackDir, name, "Roboto-subset.ttf");
  }

  /** `testCaseGeneratorLib/makeFallbackFont.py`: write `out/Roboto-subset-<mode>.ttf`, pass rules for `pass`. */
  function MakeFallbackFontPassFail(argv: seq<string>, font: SubsetFont): (r: Result<Build, Usage>)
    ensures r.Err? <==> |argv| < 2 || argv[1] !in PassFailModes
    ensures r.Err? ==> r.error == Usage(PassFailUsage, 1)
    ensures r.Ok? ==> r.value.inputPath == "resources/Roboto-Regular.ttf"
    ensures r.Ok? ==> r.value.subsetPath == "out/Roboto-subset.ttf"
    ensures r.Ok? ==> r.value.finalPath == "out/Roboto-subset-" + argv[1] + ".ttf"
    ensures r.Ok? ==> r.value.requested == Requested(UpperCaseLetters)
    ensures r.Ok? ==> r.value.names == RenameRecords(font.names, FamilyName(argv[1]))
    ensures r.Ok? ==> r.value.tables == EnsureGsub(font.tables)
    ensures r.Ok? ==> r.value.liga == RulesFor(argv[1], "pass")
  {
    match ParseMode(argv, PassFailModes, PassFailUsage)
    case Err(u) => Err(u)
    case Ok(mode) =>
      Ok(Finish("resources/Roboto-Regular.ttf", "out/Roboto-subset.ttf", "out/Roboto-subset-" + mode + ".ttf", Requested(UpperCaseLetters),
                font, FamilyName(mode), RulesFor(mode, "pass")))
  }

  /** The two modes write different files, and neither is the intermediate subset file. */
  lemma PassFailOutputsDistinct(font: SubsetFont)
    ensures var p := MakeFallbackFontPassFail(["makeFallbackFont.py", "pass"], font).value;
            var f := MakeFallbackFontPassFail(["makeFallbackFont.py", "fail"], font).value;
            && p.finalPath != f.finalPath
            && p.finalPath != p.subsetPath && f.finalPath != f.subsetPath
  {
    var p := MakeFallbackFontPassFail(["makeFallbackFont.py", "pass"], font).value;
    var f := MakeFallbackFontPassFail(["makeFallbackFont.py", "fail"], font).value;
    assert p.finalPath[18] == 'p' && f.finalPath[18] == 'f';
    assert |p.subsetPath| != |p.finalPath|;
  }

  /** `makeFallbackFont.py`: the lower-case builder, with no command line. */
  function MakeFallbackFont(font: SubsetFont): (r: Build)
    ensures r.inputPath == "Roboto-Regular.ttf"
    ensures r.subsetPath == "Roboto-subset.ttf" && r.finalPath == "Roboto-subset-modified.ttf"
    ensures r.requested == Requested(LowerCaseLetters)
    ensures r.names == RenameRecords(font.names, PlainFamilyName)
    ensures r.liga == LowerCaseRules
    ensures r.tables == EnsureGsub(font.tables)
  {
    Finish("Roboto-Regular.ttf", "Roboto-subset.ttf", "Roboto-subset-modified.ttf", Requested(LowerCaseLetters), font,
           PlainFamilyName, LowerCaseRules)
  }

  /**
   The page's fallback family `RobotoFallbackPass` is the `pass` build of
   the pass/fail builder, and that build turns P into PASS.
   */
  lemma PassBuildIsPageFallback(font: SubsetFont)
    ensures var b := MakeFallbackFontPassFail(["makeFallbackFont.py", "pass"], font).value;
            && (forall i :: 0 <= i < |font.names| && font.names[i].nameID == 1 ==> b.names[i].text == "RobotoFallbackPass")
            && Shape(b.liga, "P") == PassWord
  {
    var b := MakeFallbackFontPassFail(["makeFallbackFont.py", "pass"], font).value;
    assert b.liga == PassRules;
    FamilyNameOfPass();
    RulesSpell();
  }

  /** Distinct single components joined to the same directory give distinct paths. */
  lemma JoinDistinct(dir: string, a: string, b: string)
    requires a != b && |a| > 0 && |b| > 0 && a[0] != '/' && b[0] != '/'
    ensures Paths.Join(dir, a) != Paths.Join(dir, b)
  {
    var pre := if |dir| == 0 || dir[|dir| - 1] == '/' then dir else dir + "/";
    assert Paths.Join(dir, a) == pre + a;
    assert Paths.Join(dir, b) == pre + b;
    assert (pre + a)[|pre|..] == a;
    assert (pre + b)[|pre|..] == b;
  }
}

=== FILE: generator.dfy ===
/**
 The generator script as a whole: declare the groups, write the one IFT
 case whose builder is `makeFormat3IFT`, then archive the test fonts, write
 the manifest and report unknown files, stopping at the first step that
 raises.
 */
module Generator {
  import opened Results
  import Text
  import Paths
  import Registry
  import IftPatch
  import Emitters

  const FixtureIdentifier := "tabledata-dsig-001"
  const FixtureTitle := "Format 1 with valid format number"
  const FixtureDescription := "The IFT table 'format' field is set to 3, which is a invalid format number."
  const FixtureSpecLink := "#conform-format1-valid-format-number"

  /** The message of the exception a failed patch raises inside the builder. */
  function PatchErrorMessage(e: IftPatch.PatchError): string
  {
    match e
    case MissingIftTable => "IFT table not found in font."
    case EmptyTableData => "bytearray index out of range"
  }

  /** How `func()` ends inside `writeTest`: its return value is discarded, only an exception matters. */
  function BuilderOutcome(run: IftPatch.Format3Run): (r: Registry.BuildOutcome)
    ensures r.Built? <==> run.data.Ok?
  {
    match run.data
    case Ok(_) => Registry.Built
    case Err(e) => Registry.BuildFailed(PatchErrorMessage(e))
  }

  /** The identifier of the fixture belongs to the `tabledata` group. */
  lemma FixtureTag()
    ensures Registry.GroupTag(FixtureIdentifier) == "tabledata"
  {
    assert FixtureIdentifier == "tabledata" + ['-'] + "dsig-001";
    Text.BeforeFirstOf("tabledata", '-', "dsig-001");
  }

  /**
   The registry the script builds: the declared groups, then the
   `writeTest` call for `tabledata-dsig-001`.
   */
  function GenerateRegistry(main: string, resourceNames: seq<string>, font: IftPatch.Font,
                            expandSpecLinks: Option<string> -> string): Registry.WriteOutcome
  {
    var reg := Registry.Init(Registry.DeclaredGroups(expandSpecLinks(Some("#DataTables"))));
    var run := IftPatch.MakeFormat3Ift(main, resourceNames, font);
    Registry.WriteTest(reg, FixtureIdentifier, FixtureTitle, FixtureDescription, BuilderOutcome(run),
                       Some(FixtureSpecLink), true, expandSpecLinks)
  }

  /** The declared groups: three, with `tabledata` second and its tag not shared. */
  lemma DeclaredTableData(url: string)
    ensures var g := Registry.DeclaredGroups(url);
            && |g| == 3 && g[1].tag == "tabledata"
            && g[0].tag != g[1].tag && g[2].tag != g[1].tag
  {
  }

  /**
   The script registers its one case exactly when the source font has a
   non-empty `IFT ` table, and otherwise stops with the builder's exception;
   either way the registry keeps its invariant.
   */
  lemma GenerateRegistryOutcome(main: string, resourceNames: seq<string>, font: IftPatch.Font,
                                expandSpecLinks: Option<string> -> string)
    ensures var out := GenerateRegistry(main, resourceNames, font, expandSpecLinks);
            && (out.Written? <==> IftPatch.FormatField(font).Some?)
            && (out.Failed? ==> out.error.BuilderError?)
            && Registry.Valid(out.reg)
  {
    var groups := Registry.DeclaredGroups(expandSpecLinks(Some("#DataTables")));
    var reg := Registry.Init(groups);
    Registry.InitValid(groups);
    FixtureTag();
    DeclaredTableData(expandSpecLinks(Some("#DataTables")));
    assert groups[1] in groups;
    Registry.WriteTestPreservesValid(reg, FixtureIdentifier, FixtureTitle, FixtureDescription,
      BuilderOutcome(IftPatch.MakeFormat3Ift(main, resourceNames, font)), Some(FixtureSpecLink), true, expandSpecLinks);
  }

  /** When the script registers its case, the listing handed to the index, zip and manifest is that case alone. */
  lemma GenerateRegistryListing(main: string, resourceNames: seq<string>, font: IftPatch.Font,
                                expandSpecLinks: Option<string> -> string)
    requires GenerateRegistry(main, resourceNames, font, expandSpecLinks).Written?
    ensures var out := GenerateRegistry(main, resourceNames, font, expandSpecLinks);
            && Registry.Valid(out.reg)
            && Registry.AllCases(out.reg) == [Registry.TestCase(
                 FixtureIdentifier, FixtureTitle, FixtureDescription, true, expandSpecLinks(Some(FixtureSpecLink)))]
  {
    GenerateRegistryOutcome(main, resourceNames, font, expandSpecLinks);
    var groups := Registry.DeclaredGroups(expandSpecLinks(Some("#DataTables")));
    DeclaredTableData(expandSpecLinks(Some("#DataTables")));
    FixtureTag();
    var out := GenerateRegistry(main, resourceNames, font, expandSpecLinks);
    var tc := Registry.TestCase(FixtureIdentifier, FixtureTitle, FixtureDescription, true, expandSpecLinks(Some(FixtureSpecLink)));
    OneCase(groups, out.reg.buckets, tc);
  }

  /**
   When the script registers its case, the manifest text of the generated
   registry is that case's line and nothing else. The script writes it only
   when the archive step before it completes (see `RunScript`).
   */
  lemma GeneratedManifest(main: string, resourceNames: seq<string>, font: IftPatch.Font,
                          expandSpecLinks: Option<string> -> string)
    requires GenerateRegistry(main, resourceNames, font, expandSpecLinks).Written?
    ensures var out := GenerateRegistry(main, resourceNames, font, expandSpecLinks);
            && Registry.Valid(out.reg)
            && Emitters.ManifestText(out.reg) == Emitters.Line(Registry.TestCase(
                 FixtureIdentifier, FixtureTitle, FixtureDescription, true, expandSpecLinks(Some(FixtureSpecLink))))
  {
    GenerateRegistryListing(main, resourceNames, font, expandSpecLinks);
    var out := GenerateRegistry(main, resourceNames, font, expandSpecLinks);
    var tc := Registry.TestCase(FixtureIdentifier, FixtureTitle, FixtureDescription, true, expandSpecLinks(Some(FixtureSpecLink)));
    Emitters.LinesAt([tc], 0);
  }

  /** The listing of three groups when only the second group's bucket holds a case. */
  lemma OneCase(groups: seq<Registry.Group>, buckets: map<string, seq<Registry.TestCase>>, tc: Registry.TestCase)
    requires |groups| == 3
    requires forall g :: g in groups ==> g.tag in buckets
    requires groups[0].tag != groups[1].tag && groups[2].tag != groups[1].tag
    requires buckets[groups[1].tag] == [tc]
    requires forall t :: t in buckets && t != groups[1].tag ==> buckets[t] == []
    ensures Registry.CasesOf(groups, buckets) == [tc]
  {
    var g1 := groups[1..];
    var g2 := g1[1..];
    assert g2[1..] == [];
    assert g2[0] == groups[2] && g1[0] == groups[1];
    assert Registry.CasesOf(g2, buckets) == [];
    assert Registry.CasesOf(g1, buckets) == [tc];
  }

  // ---------------------------------------------------------------------------
  // The steps after the registry
  // ---------------------------------------------------------------------------

  /** How a run of the whole script ends. */
  datatype ScriptEnd =
    /** `writeTest` raised: no later step runs. */
    | RegistryFailed(error: Registry.WriteError)
    /**
     The archive loop's assertion failed: the archive holds the members
     written before the offending file, and neither the manifest nor the
     unknown-file report is produced, so an earlier `manifest.txt` stays.
     */
    | ZipFailed(archived: seq<Emitters.ZipEntry>, offending: string)
    /** Every step ran: the full archive, the manifest text and the files reported as unknown. */
    | Completed(archive: seq<Emitters.ZipEntry>, manifest: string, unknown: seq<string>)

  /**
   The steps after `writeTest`: the archive of the test fonts, then the
   manifest of the registry, then the unknown-file report. `testDir` is
   `clientTestDirectory` and `testNames` the names a listing of it returns,
   in listing order; the index page is left out.
   */
  function FinishScript(out: Registry.WriteOutcome, testDir: string, testNames: seq<string>): (r: ScriptEnd)
    requires Registry.Valid(out.reg)
  {
    if out.Failed? then RegistryFailed(out.error)
    else
      match Emitters.ZipEntries(Emitters.ZipPaths(testDir, testNames))
      case Stopped(written, offending) => ZipFailed(written, offending)
      case Finished(entries) =>
        Completed(entries, Emitters.ManifestText(out.reg),
                  Emitters.UnknownFiles(Emitters.FilesOnDisk(testDir, testNames), out.reg.identifiers))
  }

  /** The whole script, from `writeTest` on. */
  function RunScript(main: string, resourceNames: seq<string>, font: IftPatch.Font,
                     expandSpecLinks: Option<string> -> string,
                     testDir: string, testNames: seq<string>): ScriptEnd
  {
    GenerateRegistryOutcome(main, resourceNames, font, expandSpecLinks);
    FinishScript(GenerateRegistry(main, resourceNames, font, expandSpecLinks), testDir, testNames)
  }

  /**
   After `writeTest`, the script runs to its end exactly when the case was
   registered and every file the archive loop visits has a font extension.
   */
  lemma FinishScriptCompletes(out: Registry.WriteOutcome, testDir: string, testNames: seq<string>)
    requires Registry.Valid(out.reg)
    ensures var ps := Emitters.ZipPaths(testDir, testNames);
            (FinishScript(out, testDir, testNames).Completed?
             <==> out.Written? && forall i :: 0 <= i < |ps| ==> Emitters.Allowed(ps[i]))
  {
    Emitters.ZipEntriesAllowed(Emitters.ZipPaths(testDir, testNames));
  }

  /**
   The script runs to its end exactly when the source font has a format
   field to patch and every file the archive loop visits has a font
   extension.
   */
  lemma RunScriptCompletes(main: string, resourceNames: seq<string>, font: IftPatch.Font,
                           expandSpecLinks: Option<string> -> string, testDir: string, testNames: seq<string>)
    ensures var ps := Emitters.ZipPaths(testDir, testNames);
            (RunScript(main, resourceNames, font, expandSpecLinks, testDir, testNames).Completed?
             <==> IftPatch.FormatField(font).Some? && forall i :: 0 <= i < |ps| ==> Emitters.Allowed(ps[i]))
  {
    GenerateRegistryOutcome(main, resourceNames, font, expandSpecLinks);
    FinishScriptCompletes(GenerateRegistry(main, resourceNames, font, expandSpecLinks), testDir, testNames);
  }

  /**
   Once the case is registered, a listed file that matches `*.?t?` without
   a font extension stops the script in the archive step, before the
   manifest; the abort names the first such file visited, after archiving
   the files before it.
   */
  lemma StrayFileStopsScript(out: Registry.WriteOutcome, testDir: string, testNames: seq<string>, n: string)
    requires out.Written? && Registry.Valid(out.reg)
    requires n in testNames && Emitters.ZipPattern(n) && !Emitters.Allowed(Paths.Join(testDir, n))
    ensures var r := FinishScript(out, testDir, testNames);
            var ps := Emitters.ZipPaths(testDir, testNames);
            && r.ZipFailed?
            && r.archived == Emitters.ZipEntries(ps).written
            && var k := |r.archived|;
               k < |ps| && r.offending == ps[k] && !Emitters.Allowed(ps[k])
               && forall j :: 0 <= j < k ==> Emitters.Allowed(ps[j])
  {
    var ps := Emitters.ZipPaths(testDir, testNames);
    Emitters.ZipPathsCover(testDir, testNames, n);
    var i :| 0 <= i < |ps| && ps[i] == Paths.Join(testDir, n);
    Emitters.ZipEntriesAllowed(ps);
    Emitters.ZipAbortsAtFirst(ps);
  }

  /**
   A completed run archived every visited file under its basename, wrote
   the registry's manifest, and reported exactly the font files whose
   identifier `writeTest` did not record.
   */
  lemma FinishScriptOutputs(out: Registry.WriteOutcome, testDir: string, testNames: seq<string>)
    requires Registry.Valid(out.reg)
    requires FinishScript(out, testDir, testNames).Completed?
    ensures var r := FinishScript(out, testDir, testNames);
            var ps := Emitters.ZipPaths(testDir, testNames);
            && r.manifest == Emitters.ManifestText(out.reg)
            && |r.archive| == |ps|
            && (forall i :: 0 <= i < |ps| ==> r.archive[i] == Emitters.ZipEntry(ps[i], Paths.Basename(ps[i])))
            && (forall p :: p in r.unknown <==>
                  p in Emitters.FilesOnDisk(testDir, testNames) && Emitters.FileIdentifier(p) !in out.reg.identifiers)
  {
    var ps := Emitters.ZipPaths(testDir, testNames);
    forall i | 0 <= i < |ps|
      ensures Emitters.Processed(Emitters.ZipEntries(ps))[i] == Emitters.ZipEntry(ps[i], Paths.Basename(ps[i]))
    {
      Emitters.ZipEntriesNamed(ps, i);
    }
  }

  /**
   When the whole script completes, the manifest it writes is the fixture's
   line alone, and a font file is reported exactly when its identifier is
   not `tabledata-dsig-001`.
   */
  lemma RunScriptOutputs(main: string, resourceNames: seq<string>, font: IftPatch.Font,
                         expandSpecLinks: Option<string> -> string, testDir: string, testNames: seq<string>)
    requires RunScript(main, resourceNames, font, expandSpecLinks, testDir, testNames).Completed?
    ensures var r := RunScript(main, resourceNames, font, expandSpecLinks, testDir, testNames);
            && r.manifest == Emitters.Line(Registry.TestCase(
                 FixtureIdentifier, FixtureTitle, FixtureDescription, true, expandSpecLinks(Some(FixtureSpecLink))))
            && (forall p :: p in r.unknown <==>
                  p in Emitters.FilesOnDisk(testDir, testNames) && Emitters.FileIdentifier(p) != FixtureIdentifier)
  {
    var out := GenerateRegistry(main, resourceNames, font, expandSpecLinks);
    GenerateRegistryOutcome(main, resourceNames, font, expandSpecLinks);
    GeneratedManifest(main, resourceNames, font, expandSpecLinks);
    RegisteredIdentifiers(main, resourceNames, font, expandSpecLinks);
    FinishScriptOutputs(out, testDir, testNames);
  }

  /** A registered fixture leaves its identifier as the only one recorded. */
  lemma RegisteredIdentifiers(main: string, resourceNames: seq<string>, font: IftPatch.Font,
                              expandSpecLinks: Option<string> -> string)
    requires GenerateRegistry(main, resourceNames, font, expandSpecLinks).Written?
    ensures GenerateRegistry(main, resourceNames, font, expandSpecLinks).reg.identifiers == {FixtureIdentifier}
  {
    FixtureTag();
    DeclaredTableData(expandSpecLinks(Some("#DataTables")));
  }
}

=== FILE: ift.dfy ===
/**
 The format-number patch applied to the `IFT ` table of an incremental font
 transfer font: the scripts load a font, look its `IFT ` table up, overwrite
 the first byte of the raw table data (the `format` field) with 3, and
 either save the font and read the field back or hand the patched data to
 the test-case registry.

 A font is the map from table tag to raw table data; loading and saving a
 font keep that map as it is (the file format itself is not modelled).
 */
module IftPatch {
  import opened Results
  import Paths
  import Listing

  /** An unsigned 8-bit value, the element of a `bytes` object. */
  type Byte = b: int | 0 <= b < 256

  /** A font: raw data per table tag. */
  type Font = map<string, seq<Byte>>

  /** The tag of the incremental font transfer table. */
  const IftTag := "IFT "

  /** The value written into the `format` field. */
  const NewFormat: Byte := 3

  /** The exceptions the patch can raise. */
  datatype PatchError =
    /** The `ValueError` raised when the font has no `IFT ` table. */
    | MissingIftTable
    /** The `IndexError` raised when the first byte of an empty table is assigned. */
    | EmptyTableData

  /** Overwrite the first byte of a mutable copy of the table data with 3. */
  function SetFormat(data: seq<Byte>): (r: Result<seq<Byte>, PatchError>)
    ensures r.Err? <==> |data| == 0
    ensures r.Err? ==> r.error == EmptyTableData
    ensures r.Ok? ==> |r.value| == |data| && r.value[0] == NewFormat
    ensures r.Ok? ==> forall i :: 1 <= i < |data| ==> r.value[i] == data[i]
  {
    if |data| == 0 then Err(EmptyTableData) else Ok([NewFormat] + data[1..])
  }

  /**
   The patch: look the `IFT ` table up (raising when the font has none),
   set its first byte to 3, and store the bytes back in the font.
   */
  function PatchFont(font: Font): (r: Result<Font, PatchError>)
    ensures r == Err(MissingIftTable) <==> IftTag !in font
    ensures r == Err(EmptyTableData) <==> IftTag in font && |font[IftTag]| == 0
    ensures r.Ok? ==> r.value.Keys == font.Keys
    ensures r.Ok? ==> forall t :: t in font && t != IftTag ==> r.value[t] == font[t]
    ensures r.Ok? ==> SetFormat(font[IftTag]) == Ok(r.value[IftTag])
  {
    if IftTag !in font then Err(MissingIftTable)
    else
      match SetFormat(font[IftTag])
      case Err(e) => Err(e)
      case Ok(raw) => Ok(font[IftTag := raw])
  }

  /** `font["IFT "].data[0]`: the `format` field as read back, when there is one. */
  function FormatField(font: Font): Option<Byte>
  {
    if IftTag in font && |font[IftTag]| > 0 then Some(font[IftTag][0]) else None
  }

  /** A patched font reads back format 3, and every other byte of the table is kept. */
  lemma PatchedFormatReadsBack(font: Font)
    requires PatchFont(font).Ok?
    ensures FormatField(PatchFont(font).value) == Some(NewFormat)
    ensures |PatchFont(font).value[IftTag]| == |font[IftTag]|
    ensures forall i :: 1 <= i < |font[IftTag]| ==> PatchFont(font).value[IftTag][i] == font[IftTag][i]
  {
  }

  /** The patch succeeds exactly when the font has a non-empty `IFT ` table. */
  lemma PatchSucceeds(font: Font)
    ensures PatchFont(font).Ok? <==> FormatField(font).Some?
  {
  }

  /** Patching a patched font changes nothing. */
  lemma PatchIdempotent(font: Font)
    requires PatchFont(font).Ok?
    ensures PatchFont(PatchFont(font).value) == PatchFont(font)
  {
    var patched := PatchFont(font).value;
    var raw := patched[IftTag];
    assert SetFormat(raw) == Ok(raw) by {
      assert [NewFormat] + raw[1..] == raw;
    }
    assert patched[IftTag := raw] == patched;
  }

  /** A font is left unchanged by the patch exactly when its format field is already 3. */
  lemma PatchFixedPoint(font: Font)
    ensures PatchFont(font) == Ok(font) <==> FormatField(font) == Some(NewFormat)
  {
    if FormatField(font) == Some(NewFormat) {
      var raw := font[IftTag];
      assert [NewFormat] + raw[1..] == raw;
      assert font[IftTag := raw] == font;
    }
  }

  // ---------------------------------------------------------------------------
  // The scripts
  // ---------------------------------------------------------------------------

  /** What a patch-and-save script leaves behind: the file written and the field read back. */
  datatype SavedPatch = SavedPatch(source: string, outPath: string, saved: Font, formatValue: Byte)

  /**
   Patch the font loaded from `source`, save it to `outPath`, load the saved
   file and read its `format` field.
   */
  function PatchAndSave(source: string, outPath: string, font: Font): (r: Result<SavedPatch, PatchError>)
    ensures r.Err? <==> FormatField(font).None?
    ensures r.Err? ==> PatchFont(font) == Err(r.error)
    ensures r.Ok? ==> r.value.source == source && r.value.outPath == outPath
    ensures r.Ok? ==> r.value.formatValue == NewFormat
    ensures r.Ok? ==> PatchFont(font) == Ok(r.value.saved)
  {
    match PatchFont(font)
    case Err(e) => Err(e)
    case Ok(patched) =>
      PatchedFormatReadsBack(font);
      Ok(SavedPatch(source, outPath, patched, patched[IftTag][0]))
  }

  /** The name the scripts save the patched font under. */
  const OutputName := "myfont-mod.ift.otf"

  /** The output name is a single path component. */
  lemma OutputNameIsComponent()
    ensures |OutputName| > 0 && '/' !in OutputName
  {
  }

  /** The directory `generators/ift.py` writes to: a placeholder test name under `IFTTestDirectory`. */
  function IftScriptDirectory(main: string): string
  {
    Paths.Join(Paths.IftTestDirectory(main), "test_name_goes_here")
  }

  /** `generators/ift.py`: patch `IFTSourcePath` into `myfont-mod.ift.otf` of its test directory. */
  function IftScript(main: string, font: Font): (r: Result<SavedPatch, PatchError>)
    ensures r.Err? <==> FormatField(font).None?
    ensures r.Err? ==> PatchFont(font) == Err(r.error)
    ensures r.Ok? ==> PatchFont(font) == Ok(r.value.saved)
    ensures r.Ok? ==> r.value.source == Paths.IftSourcePath(main)
    ensures r.Ok? ==> r.value.formatValue == NewFormat
  {
    PatchAndSave(Paths.IftSourcePath(main), Paths.Join(IftScriptDirectory(main), OutputName), font)
  }

  /** `generators/ift.py` writes a file named `myfont-mod.ift.otf` into its test directory. */
  lemma IftScriptOutput(main: string, font: Font)
    requires IftScript(main, font).Ok?
    ensures var out := IftScript(main, font).value.outPath;
            && Paths.Basename(out) == OutputName
            && Paths.Dirname1(out) == IftScriptDirectory(main)
  {
    var dir := IftScriptDirectory(main);
    assert |dir| > 0 && dir[|dir| - 1] != '/';
    OutputNameIsComponent();
    Paths.BasenameOfChild(dir, OutputName);
    Paths.DirnameOfJoin(dir, OutputName);
  }

  /** `updateIFTFont.py`: patch `myfont.ift.ttf` into `myfont-mod.ift.otf`, both in the working directory. */
  function UpdateIftFont(font: Font): (r: Result<SavedPatch, PatchError>)
    ensures r.Err? <==> FormatField(font).None?
    ensures r.Err? ==> PatchFont(font) == Err(r.error)
    ensures r.Ok? ==> PatchFont(font) == Ok(r.value.saved)
    ensures r.Ok? ==> r.value.source == "myfont.ift.ttf" && r.value.outPath == OutputName
    ensures r.Ok? ==> r.value.formatValue == NewFormat
  {
    PatchAndSave("myfont.ift.ttf", OutputName, font)
  }

  // ---------------------------------------------------------------------------
  // The registry fixture
  // ---------------------------------------------------------------------------

  /** The test name of the one IFT fixture. */
  const Format3TestName := "conform-format1-valid-format-number"

  /** A copy of a resource file into the test directory. */
  datatype Copy = Copy(source: string, target: string)

  /** Copy each file into the directory, where the copy keeps the file's basename. */
  function CopiesInto(dir: string, files: seq<string>): (r: seq<Copy>)
    ensures |r| == |files|
  {
    if |files| == 0 then []
    else [Copy(files[0], Paths.Join(dir, Paths.Basename(files[0])))] + CopiesInto(dir, files[1..])
  }

  /** Copy `i` takes file `i` to the directory under the file's basename. */
  lemma {:induction false} CopiesIntoAt(dir: string, files: seq<string>, i: nat)
    requires i < |files|
    ensures CopiesInto(dir, files)[i] == Copy(files[i], Paths.Join(dir, Paths.Basename(files[i])))
  {
    if i > 0 {
      CopiesIntoAt(dir, files[1..], i - 1);
    }
  }

  /** What `makeFormat3IFT` does: the copies it makes, then the patched table data or the error. */
  datatype Format3Run = Format3Run(testDirectory: string, copies: seq<Copy>, data: Result<seq<Byte>, PatchError>)

  /**
   `makeFormat3IFT`: copy the `*_gk` and then the `*_tk` files of
   `resources/IFT` into the test directory, then patch the `IFT ` table of
   the font at `IFTSourcePath` and return the patched table data. The font is
   not saved: the output path it computes is never written.
   */
  function MakeFormat3Ift(main: string, resourceNames: seq<string>, font: Font): (r: Format3Run)
    ensures r.testDirectory == Paths.Join(Paths.IftTestDirectory(main), Format3TestName)
    ensures r.data.Err? <==> FormatField(font).None?
    ensures r.data.Ok? ==> PatchFont(font).Ok? && r.data.value == PatchFont(font).value[IftTag]
  {
    var dir := Paths.Join(Paths.IftTestDirectory(main), Format3TestName);
    var sourceDir := Paths.Join(Paths.ResourcesDirectory(main), "IFT");
    var files := Listing.Glob(sourceDir, resourceNames, "_gk") + Listing.Glob(sourceDir, resourceNames, "_tk");
    var data := match PatchFont(font)
      case Err(e) => Err(e)
      case Ok(patched) => Ok(patched[IftTag]);
    Format3Run(dir, CopiesInto(dir, files), data)
  }

  /** The data `makeFormat3IFT` returns has format 3 and otherwise the source table's bytes. */
  lemma Format3Data(main: string, resourceNames: seq<string>, font: Font)
    requires MakeFormat3Ift(main, resourceNames, font).data.Ok?
    ensures var d := MakeFormat3Ift(main, resourceNames, font).data.value;
            && |d| == |font[IftTag]| && d[0] == NewFormat
            && forall i :: 1 <= i < |d| ==> d[i] == font[IftTag][i]
  {
    PatchedFormatReadsBack(font);
  }

  /**
   Every resource file named `*_gk` or `*_tk` is copied into the test
   directory under its own name, whether or not the patch then succeeds.
   */
  lemma Format3CopiesKeyFiles(main: string, resourceNames: seq<string>, font: Font, name: string, suffix: string)
    requires suffix == "_gk" || suffix == "_tk"
    requires name in resourceNames && Listing.Matches(name, suffix) && '/' !in name
    ensures var r := MakeFormat3Ift(main, resourceNames, font);
            var sourceDir := Paths.Join(Paths.ResourcesDirectory(main), "IFT");
            Copy(Paths.Join(sourceDir, name), Paths.Join(r.testDirectory, name)) in r.copies
  {
    var dir := Paths.Join(Paths.IftTestDirectory(main), Format3TestName);
    var sourceDir := Paths.Join(Paths.ResourcesDirectory(main), "IFT");
    var gk := Listing.Glob(sourceDir, resourceNames, "_gk");
    var tk := Listing.Glob(sourceDir, resourceNames, "_tk");
    var files := gk + tk;
    var p := Paths.Join(sourceDir, name);
    Listing.GlobCover(sourceDir, resourceNames, name, suffix);
    assert p in files;
    var i :| 0 <= i < |files| && files[i] == p;
    CopiesIntoAt(dir, files, i);
    SourceDirectoryShape(main);
    Paths.BasenameOfChild(sourceDir, name);
    assert CopiesInto(dir, files)[i] in CopiesInto(dir, files);
  }

  /** The resource directory path ends in a component, not a slash. */
  lemma SourceDirectoryShape(main: string)
    ensures var d := Paths.Join(Paths.ResourcesDirectory(main), "IFT");
            |d| > 0 && d[|d| - 1] != '/'
  {
  }
}

=== FILE: listing.dfy ===
/**
 `glob.glob(os.path.join(dir, pattern))` over a directory listing: the
 listing is given as the sequence of names in the order the file system
 yields them, a pattern is a predicate on names, and each match comes back
 joined to the directory.
 */
module Listing {
  import Paths

  /** The elements of `s` that satisfy `keep`, in order. */
  function Filter(s: seq<string>, keep: string -> bool): (r: seq<string>)
    ensures |r| <= |s|
    ensures forall x :: x in r <==> x in s && keep(x)
  {
    if |s| == 0 then []
    else if keep(s[0]) then [s[0]] + Filter(s[1..], keep)
    else Filter(s[1..], keep)
  }

  /**
   Whether the glob `*<suffix>` matches a file name: the name ends with the
   suffix and is not hidden (a leading `.` is never matched by `*`).
   */
  predicate Matches(name: string, suffix: string)
  {
    |name| >= |suffix| && |name| > 0 && name[0] != '.' && name[|name| - |suffix|..] == suffix
  }

  /** `os.path.join(dir, name)` for every name of the listing, as `glob` yields them. */
  function Under(dir: string, names: seq<string>): (r: seq<string>)
    ensures |r| == |names|
  {
    if |names| == 0 then [] else [Paths.Join(dir, names[0])] + Under(dir, names[1..])
  }

  /** Entry `i` of the joined listing is the join of name `i`. */
  lemma {:induction false} UnderAt(dir: string, names: seq<string>, i: nat)
    requires i < |names|
    ensures Under(dir, names)[i] == Paths.Join(dir, names[i])
  {
    if i > 0 {
      UnderAt(dir, names[1..], i - 1);
    }
  }

  /** Every name of the listing appears joined to the directory. */
  lemma UnderContains(dir: string, names: seq<string>, n: string)
    requires n in names
    ensures Paths.Join(dir, n) in Under(dir, names)
  {
    var i :| 0 <= i < |names| && names[i] == n;
    UnderAt(dir, names, i);
  }

  /** Every joined path comes from some name of the listing. */
  lemma UnderFrom(dir: string, names: seq<string>, p: string)
    requires p in Under(dir, names)
    ensures exists i :: 0 <= i < |names| && p == Paths.Join(dir, names[i])
  {
    var i :| 0 <= i < |names| && Under(dir, names)[i] == p;
    UnderAt(dir, names, i);
  }

  /** `glob` of `dir` with the pattern `*<suffix>` over a directory listing. */
  function Glob(dir: string, names: seq<string>, suffix: string): seq<string>
  {
    Under(dir, Filter(names, n => Matches(n, suffix)))
  }

  /** A listed name that the pattern matches is found by `glob`. */
  lemma GlobCover(dir: string, names: seq<string>, n: string, suffix: string)
    requires n in names && Matches(n, suffix)
    ensures Paths.Join(dir, n) in Glob(dir, names, suffix)
  {
    UnderContains(dir, Filter(names, m => Matches(m, suffix)), n);
  }

  /** Everything `glob` finds is a listed name that the pattern matches, joined to the directory. */
  lemma GlobSound(dir: string, names: seq<string>, p: string, suffix: string)
    requires p in Glob(dir, names, suffix)
    ensures exists n :: n in names && Matches(n, suffix) && p == Paths.Join(dir, n)
  {
    var kept := Filter(names, m => Matches(m, suffix));
    UnderFrom(dir, kept, p);
    var i :| 0 <= i < |kept| && p == Paths.Join(dir, kept[i]);
    assert kept[i] in kept;
  }
}

=== FILE: paths.dfy ===
/**
 The path helpers of the generators' `paths` module: POSIX `os.path.dirname`,
 `os.path.join`, the repeated `dirname(path, depth)`, and the directories
 derived from the location of the `paths` module itself.
 */
module Paths {
  import Text

  /** `s` consists only of the character `c` (vacuously true when empty). */
  predicate AllChar(s: string, c: char)
  {
    forall k :: 0 <= k < |s| ==> s[k] == c
  }

  /** `s.rstrip(c)`: `s` without its trailing run of `c`. */
  function RStrip(s: string, c: char): (r: string)
    ensures |r| <= |s|
  {
    if |s| > 0 && s[|s| - 1] == c then RStrip(s[..|s| - 1], c) else s
  }

  /**
   One step of POSIX `os.path.dirname`: everything up to the last `/`,
   with trailing slashes removed unless the head is made of slashes only.
   */
  function Dirname1(p: string): (r: string)
    ensures |r| <= |p|
  {
    var head := p[..Text.RFind(p, '/') + 1];
    if |head| > 0 && !AllChar(head, '/') then RStrip(head, '/') else head
  }

  /** `depth` applications of `step`; none when `depth <= 0`, as with `range(depth)`. */
  function Iterate(step: string -> string, p: string, depth: int): string
    decreases if depth < 0 then 0 else depth
  {
    if depth <= 0 then p else Iterate(step, step(p), depth - 1)
  }

  /** Iterating `a + b` times is iterating `a` times, then `b` times. */
  lemma {:induction false} IterateAdditive(step: string -> string, p: string, a: nat, b: nat)
    ensures Iterate(step, p, a + b) == Iterate(step, Iterate(step, p, a), b)
    decreases a
  {
    if a > 0 {
      IterateAdditive(step, step(p), a - 1, b);
    }
  }

  /** `dirname(path, depth)`: `depth` single `os.path.dirname` steps. */
  function Dirname(p: string, depth: int): string
  {
    Iterate(Dirname1, p, depth)
  }

  /** Depth zero (and any negative depth) leaves the path unchanged. */
  lemma DirnameZero(p: string, depth: int)
    requires depth <= 0
    ensures Dirname(p, depth) == p
  {
  }

  /** The default depth 1 is exactly one `os.path.dirname` step. */
  lemma DirnameDefaultDepth(p: string)
    ensures Dirname(p, 1) == Dirname1(p)
  {
  }

  /** `dirname` composes additively in its depth. */
  lemma DirnameAdditive(p: string, a: nat, b: nat)
    ensures Dirname(p, a + b) == Dirname(Dirname(p, a), b)
  {
    IterateAdditive(Dirname1, p, a, b);
  }

  /** The dirname of `q/name` is `q` when `q` has no trailing slash and `name` no slash. */
  lemma DirnameOfChild(q: string, name: string)
    requires |q| > 0 && q[|q| - 1] != '/' && '/' !in name
    ensures Dirname1(q + "/" + name) == q
  {
    var p := q + "/" + name;
    var i := Text.RFind(p, '/');
    assert p[|q|] == '/';
    assert forall j :: |q| < j < |p| ==> p[j] == name[j - |q| - 1];
    assert p[..i + 1] == q + "/";
    assert !AllChar(q + "/", '/') by { assert (q + "/")[|q| - 1] != '/'; }
    assert RStrip(q + "/", '/') == RStrip(q, '/');
  }

  /** The dirname of `/name` is the root `/`. */
  lemma DirnameOfRootChild(name: string)
    requires '/' !in name
    ensures Dirname1("/" + name) == "/"
  {
    var p := "/" + name;
    assert p[0] == '/';
    assert forall j :: 0 < j < |p| ==> p[j] == name[j - 1];
    assert Text.RFind(p, '/') == 0;
    assert p[..1] == "/";
    assert AllChar("/", '/');
  }

  /** The examples of the `dirname` docstring. */
  lemma DirnameDocExamples()
    ensures Dirname("/5/4/3/2/1", 1) == "/5/4/3/2"
    ensures Dirname("/5/4/3/2/1", 2) == "/5/4/3"
    ensures Dirname("/5/4/3/2/1", 3) == "/5/4"
    ensures Dirname("/5/4/3/2/1", 4) == "/5"
  {
    DirnameOfChild("/5/4/3/2", "1");
    DirnameOfChild("/5/4/3", "2");
    DirnameOfChild("/5/4", "3");
    DirnameOfChild("/5", "4");
    assert "/5/4/3/2" + "/" + "1" == "/5/4/3/2/1";
    assert "/5/4/3" + "/" + "2" == "/5/4/3/2";
    assert "/5/4" + "/" + "3" == "/5/4/3";
    assert "/5" + "/" + "4" == "/5/4";
  }

  /** POSIX `os.path.join(a, b)`. */
  function Join(a: string, b: string): (r: string)
    ensures |b| > 0 && b[0] == '/' ==> r == b
    ensures (|b| == 0 || b[0] != '/') && |a| > 0 && a[|a| - 1] != '/' ==> r == a + "/" + b
    ensures |b| > 0 ==> |r| > 0 && r[|r| - 1] == b[|b| - 1]
  {
    if |b| > 0 && b[0] == '/' then b
    else if |a| == 0 || a[|a| - 1] == '/' then a + b
    else a + "/" + b
  }

  /** `dirname` undoes `join` with a single relative component. */
  lemma DirnameOfJoin(a: string, name: string)
    requires |a| > 0 && a[|a| - 1] != '/'
    requires |name| > 0 && '/' !in name
    ensures Dirname1(Join(a, name)) == a
  {
    DirnameOfChild(a, name);
  }

  /** `mainDirectory`: the dirname of the module file, then two more levels. */
  function MainDirectory(moduleFile: string): (r: string)
    ensures r == Dirname(moduleFile, 3)
  {
    DirnameAdditive(moduleFile, 1, 2);
    Dirname(Dirname(moduleFile, 1), 2)
  }

  /** The module file `<root>/generators/testCaseGeneratorLib/paths.py`. */
  function ModuleFile(root: string): string
  {
    Join(Join(Join(root, "generators"), "testCaseGeneratorLib"), "paths.py")
  }

  /** With the module at its place in the repository, `mainDirectory` is the repository root. */
  lemma MainDirectoryIsRepositoryRoot(root: string)
    requires |root| > 0 && root[|root| - 1] != '/'
    ensures MainDirectory(ModuleFile(root)) == root
  {
    var gen := Join(root, "generators");
    var lib := Join(gen, "testCaseGeneratorLib");
    var file := Join(lib, "paths.py");
    DirnameOfJoin(root, "generators");
    DirnameOfJoin(gen, "testCaseGeneratorLib");
    DirnameOfJoin(lib, "paths.py");
    DirnameThreeSteps(file);
  }

  /** Three levels of `dirname` are three single steps. */
  lemma DirnameThreeSteps(p: string)
    ensures Dirname(p, 3) == Dirname1(Dirname1(Dirname1(p)))
  {
    assert Iterate(Dirname1, p, 3) == Iterate(Dirname1, Dirname1(p), 2);
    assert Iterate(Dirname1, Dirname1(p), 2) == Iterate(Dirname1, Dirname1(Dirname1(p)), 1);
  }

  /** `resourcesDirectory`: `<main>/generators/resources`. */
  function ResourcesDirectory(main: string): string
  {
    Join(Join(main, "generators"), "resources")
  }

  /** `IFTSourcePath`: the IFT source font among the resources. */
  function IftSourcePath(main: string): string
  {
    Join(ResourcesDirectory(main), "myfont.ift.ttf")
  }

  /** `TTFSourcePath`: the Roboto source font among the resources. */
  function TtfSourcePath(main: string): string
  {
    Join(ResourcesDirectory(main), "Roboto-Regular.ttf")
  }

  /** `IFTTestDirectory`: the `IFT` directory under the main directory. */
  function IftTestDirectory(main: string): string
  {
    Join(main, "IFT")
  }

  /** POSIX `os.path.basename`: the text after the last `/`. */
  function Basename(p: string): string
  {
    Text.AfterLast(p, '/')
  }

  /** The basename is the segment after the last slash. */
  lemma BasenameIsLastSegment(p: string)
    ensures Text.IsLastSegment(p, '/', Basename(p))
  {
    Text.AfterLastIsLastSegment(p, '/');
  }

  /** The basename of `dir/name` is `name` when `name` has no slash. */
  lemma BasenameOfChild(dir: string, name: string)
    requires '/' !in name
    ensures Basename(dir + "/" + name) == name
  {
    BasenameIsLastSegment(dir + "/" + name);
    Text.LastSegmentUnique(dir, '/', name, Basename(dir + "/" + name));
  }

  /**
   The extension half of POSIX `os.path.splitext`: from the last `.` of the
   basename, unless that dot is preceded in the basename only by dots.
   */
  function Ext(p: string): string
  {
    var sep := Text.RFind(p, '/');
    var dot := Text.RFind(p, '.');
    if dot > sep && !AllChar(p[sep + 1..dot], '.') then p[dot..] else ""
  }

  /** The extension is empty, or a dot followed by the segment after the last dot. */
  lemma ExtIsLastDotSegment(p: string)
    ensures var r := Ext(p);
            r == "" || (r[0] == '.' && Text.IsLastSegment(p, '.', r[1..]))
  {
    var dot := Text.RFind(p, '.');
    if Ext(p) != "" {
      DotSuffix(p, dot);
    }
  }

  lemma DotSuffix(p: string, dot: nat)
    requires dot < |p| && p[dot] == '.'
    requires forall j :: dot < j < |p| ==> p[j] != '.'
    ensures p[dot..][0] == '.' && Text.IsLastSegment(p, '.', p[dot..][1..])
  {
    var r := p[dot + 1..];
    assert p[dot..][1..] == r;
    assert forall k :: 0 <= k < |r| ==> r[k] == p[dot + 1 + k];
  }

  /** A name with a non-dot stem and a dotted suffix has that suffix as its extension. */
  lemma ExtOfName(dir: string, stem: string, ext: string)
    requires |stem| > 0 && stem[0] != '.' && '/' !in stem
    requires |ext| > 0 && ext[0] == '.' && '/' !in ext && '.' !in ext[1..]
    ensures Ext(dir + "/" + stem + ext) == ext
  {
    var p := dir + "/" + stem + ext;
    var sep := Text.RFind(p, '/');
    var dot := Text.RFind(p, '.');
    var d := |dir| + 1 + |stem|;
    assert p[|dir|] == '/';
    assert p[d] == '.';
    assert forall j :: d < j < |p| ==> p[j] == ext[j - d];
    assert sep == |dir|;
    assert dot == d;
    assert p[sep + 1..dot][0] == stem[0];
    assert p[dot..] == ext;
  }
}

=== FILE: registry.dfy ===
/**
 The client test-case registry of the generator script: the declared
 category groups, one bucket of cases per group tag, and the three sets that
 keep identifiers, titles and descriptions unique. `writeTest` is modelled
 as a pure function from one registry value to the next.
 */
module Registry {
  import Text
  import opened Results

  /** A declared category: tag (identifier prefix), title, spec section URL, note. */
  datatype Group = Group(tag: string, title: string, url: string, note: string)

  /** The record `writeTest` stores for a case (credits and flavor are not stored). */
  datatype TestCase = TestCase(
    identifier: string,
    title: string,
    description: string,
    shouldConvert: bool,
    specLink: string)

  /** `groupDefinitions`, `testRegistry` and the three uniqueness sets. */
  datatype Registry = Registry(
    groups: seq<Group>,
    buckets: map<string, seq<TestCase>>,
    identifiers: set<string>,
    titles: set<string>,
    descriptions: set<string>)

  /** How the fixture builder passed to `writeTest` ended. */
  datatype BuildOutcome = Built | BuildFailed(reason: string)

  /** The exceptions `writeTest` can raise. */
  datatype WriteError =
    | BuilderError(reason: string)
    | DuplicateIdentifier(identifier: string)
    | DuplicateTitle(title: string)
    | DuplicateDescription(description: string)
    | UnknownGroup(tag: string)

  /**
   The result of `writeTest`: the new registry, or the error together with
   the registry as the exception left it.
   */
  datatype WriteOutcome = Written(reg: Registry) | Failed(error: WriteError, reg: Registry)

  const TableDirectoryNote := "These files are valid SFNTs that excercise conversion of the table directory."
  const TableDataNote := "These files are valid SFNTs that excercise conversion of the table data."
  const CollectionNote := "These files are valid SFNTs that excercise conversion of font collections."

  /** `groupDefinitions`, given what `expandSpecLinks("#DataTables")` returns. */
  function DeclaredGroups(dataTablesUrl: string): seq<Group>
  {
    [ Group("tabledirectory", "SFNT Table Directory Tests", dataTablesUrl, TableDirectoryNote),
      Group("tabledata", "SFNT Table Data Tests", dataTablesUrl, TableDataNote),
      Group("collection", "SFNT Collection Tests", dataTablesUrl, CollectionNote) ]
  }

  /** The set of declared tags. */
  function Tags(groups: seq<Group>): set<string>
  {
    set g | g in groups :: g.tag
  }

  /** The group tag of an identifier: the part before its first `-`, or all of it. */
  function GroupTag(identifier: string): string
  {
    Text.BeforeFirst(identifier, '-')
  }

  /** The registry before any case is written: one empty bucket per declared tag. */
  function Init(groups: seq<Group>): (reg: Registry)
    ensures reg.groups == groups
    ensures reg.buckets.Keys == Tags(groups)
    ensures forall t :: t in reg.buckets ==> reg.buckets[t] == []
    ensures reg.identifiers == {} && reg.titles == {} && reg.descriptions == {}
  {
    Registry(groups, map t | t in Tags(groups) :: [], {}, {}, {})
  }

  /** No two stored cases share an identifier, a title or a description. */
  ghost predicate UniqueCases(buckets: map<string, seq<TestCase>>)
  {
    forall t1, i, t2, j ::
      t1 in buckets && t2 in buckets && 0 <= i < |buckets[t1]| && 0 <= j < |buckets[t2]|
      && (t1 != t2 || i != j) ==>
        && buckets[t1][i].identifier != buckets[t2][j].identifier
        && buckets[t1][i].title != buckets[t2][j].title
        && buckets[t1][i].description != buckets[t2][j].description
  }

  /**
   The registry invariant: exactly the declared tags have buckets, every
   stored case sits in the bucket of its tag, its three keys are recorded in
   the uniqueness sets, and no two stored cases share any of them.
   */
  ghost predicate Valid(reg: Registry)
  {
    && reg.buckets.Keys == Tags(reg.groups)
    && (forall t, i :: t in reg.buckets && 0 <= i < |reg.buckets[t]| ==>
          var tc := reg.buckets[t][i];
          && GroupTag(tc.identifier) == t
          && tc.identifier in reg.identifiers
          && tc.title in reg.titles
          && tc.description in reg.descriptions)
    && UniqueCases(reg.buckets)
  }

  /**
   `writeTest`: run the builder, reject a duplicate identifier, then title,
   then description, record the three keys, and append the case to the
   bucket of its group tag (which fails when the tag is not declared).
   `specLink` is `None` when the caller leaves out the optional argument,
   and `expandSpecLinks` sees it as passed; `shouldConvert` is the value the
   caller gives, `false` when it leaves that argument out.
   */
  function WriteTest(
    reg: Registry, identifier: string, title: string, description: string,
    built: BuildOutcome, specLink: Option<string>, shouldConvert: bool,
    expandSpecLinks: Option<string> -> string): (out: WriteOutcome)
    ensures built.BuildFailed? ==> out == Failed(BuilderError(built.reason), reg)
    ensures built.Built? && identifier in reg.identifiers ==>
      out == Failed(DuplicateIdentifier(identifier), reg)
    ensures built.Built? && identifier !in reg.identifiers && title in reg.titles ==>
      out == Failed(DuplicateTitle(title), reg)
    ensures built.Built? && identifier !in reg.identifiers && title !in reg.titles
            && description in reg.descriptions ==>
      out == Failed(DuplicateDescription(description), reg)
    ensures out.Written? <==>
      && built.Built?
      && identifier !in reg.identifiers && title !in reg.titles && description !in reg.descriptions
      && GroupTag(identifier) in reg.buckets
    ensures (out.Written? || out.error.UnknownGroup?) ==>
      && out.reg.groups == reg.groups
      && out.reg.identifiers == reg.identifiers + {identifier}
      && out.reg.titles == reg.titles + {title}
      && out.reg.descriptions == reg.descriptions + {description}
    ensures out.Failed? && out.error.UnknownGroup? ==>
      out.error.tag == GroupTag(identifier) && out.reg.buckets == reg.buckets
    ensures out.Written? ==>
      var tag := GroupTag(identifier);
      && out.reg.buckets.Keys == reg.buckets.Keys
      && out.reg.buckets[tag]
         == reg.buckets[tag] + [TestCase(identifier, title, description, shouldConvert, expandSpecLinks(specLink))]
      && (forall t :: t in reg.buckets && t != tag ==> out.reg.buckets[t] == reg.buckets[t])
  {
    if built.BuildFailed? then Failed(BuilderError(built.reason), reg)
    else if identifier in reg.identifiers then Failed(DuplicateIdentifier(identifier), reg)
    else if title in reg.titles then Failed(DuplicateTitle(title), reg)
    else if description in reg.descriptions then Failed(DuplicateDescription(description), reg)
    else
      var recorded := reg.(
        identifiers := reg.identifiers + {identifier},
        titles := reg.titles + {title},
        descriptions := reg.descriptions + {description});
      var tag := GroupTag(identifier);
      if tag !in reg.buckets then Failed(UnknownGroup(tag), recorded)
      else
        var tc := TestCase(identifier, title, description, shouldConvert, expandSpecLinks(specLink));
        Written(recorded.(buckets := reg.buckets[tag := reg.buckets[tag] + [tc]]))
  }

  /** The initial registry satisfies the invariant. */
  lemma InitValid(groups: seq<Group>)
    ensures Valid(Init(groups))
  {
  }

  /** Every outcome of `writeTest` on a valid registry leaves a valid registry. */
  lemma WriteTestPreservesValid(
    reg: Registry, identifier: string, title: string, description: string,
    built: BuildOutcome, specLink: Option<string>, shouldConvert: bool,
    expandSpecLinks: Option<string> -> string)
    requires Valid(reg)
    ensures Valid(WriteTest(reg, identifier, title, description, built, specLink, shouldConvert, expandSpecLinks).reg)
  {
    var out := WriteTest(reg, identifier, title, description, built, specLink, shouldConvert, expandSpecLinks);
    if out.Written? {
      var tc := TestCase(identifier, title, description, shouldConvert, expandSpecLinks(specLink));
      AppendKeepsValid(reg, tc);
      assert out.reg == Append(reg, tc);
    }
  }

  /** The registry after recording the keys of `tc` and appending it to its bucket. */
  function Append(reg: Registry, tc: TestCase): Registry
    requires GroupTag(tc.identifier) in reg.buckets
  {
    var tag := GroupTag(tc.identifier);
    reg.(
      buckets := reg.buckets[tag := reg.buckets[tag] + [tc]],
      identifiers := reg.identifiers + {tc.identifier},
      titles := reg.titles + {tc.title},
      descriptions := reg.descriptions + {tc.description})
  }

  /** Appending a case with fresh keys to the bucket of its tag keeps the invariant. */
  lemma AppendKeepsValid(reg: Registry, tc: TestCase)
    requires Valid(reg) && GroupTag(tc.identifier) in reg.buckets
    requires tc.identifier !in reg.identifiers && tc.title !in reg.titles
    requires tc.description !in reg.descriptions
    ensures Valid(Append(reg, tc))
  {
    var tag := GroupTag(tc.identifier);
    var b: map<string, seq<TestCase>> := Append(reg, tc).buckets;
    var before: map<string, seq<TestCase>> := reg.buckets;
    var n := |before[tag]|;
    assert b[tag] == before[tag] + [tc];
    forall t1: string, i: int, t2: string, j: int |
      t1 in b && t2 in b && 0 <= i < |b[t1]| && 0 <= j < |b[t2]| && (t1 != t2 || i != j)
      ensures b[t1][i].identifier != b[t2][j].identifier
      ensures b[t1][i].title != b[t2][j].title
      ensures b[t1][i].description != b[t2][j].description
    {
      if t1 == tag && i == n {
        assert b[t2][j] == before[t2][j];
      } else if t2 == tag && j == n {
        assert b[t1][i] == before[t1][i];
      } else {
        assert b[t1][i] == before[t1][i] && b[t2][j] == before[t2][j];
      }
    }
  }

  /** Once a case is written, writing its identifier again is rejected and changes nothing. */
  lemma RewriteRejected(
    reg: Registry, identifier: string, title: string, description: string,
    specLink: Option<string>, shouldConvert: bool, expandSpecLinks: Option<string> -> string,
    title2: string, description2: string, specLink2: Option<string>, shouldConvert2: bool)
    requires WriteTest(reg, identifier, title, description, Built, specLink, shouldConvert, expandSpecLinks).Written?
    ensures var reg2 := WriteTest(reg, identifier, title, description, Built, specLink, shouldConvert, expandSpecLinks).reg;
            WriteTest(reg2, identifier, title2, description2, Built, specLink2, shouldConvert2, expandSpecLinks)
            == Failed(DuplicateIdentifier(identifier), reg2)
  {
  }

  /**
   A case whose tag is not declared fails only after its keys were recorded,
   so the same identifier is afterwards reported as a duplicate.
   */
  lemma UnknownGroupRecordsKeys(
    reg: Registry, identifier: string, title: string, description: string,
    specLink: Option<string>, shouldConvert: bool, expandSpecLinks: Option<string> -> string)
    requires identifier !in reg.identifiers && title !in reg.titles && description !in reg.descriptions
    requires GroupTag(identifier) !in reg.buckets
    ensures var out := WriteTest(reg, identifier, title, description, Built, specLink, shouldConvert, expandSpecLinks);
            && out == Failed(UnknownGroup(GroupTag(identifier)), out.reg)
            && WriteTest(out.reg, identifier, title, description, Built, specLink, shouldConvert, expandSpecLinks)
               == Failed(DuplicateIdentifier(identifier), out.reg)
  {
  }

  /** The cases of the registry in group-declaration order, then insertion order (`allGroups()`). */
  function CasesOf(groups: seq<Group>, buckets: map<string, seq<TestCase>>): seq<TestCase>
    requires forall g :: g in groups ==> g.tag in buckets
  {
    if |groups| == 0 then [] else buckets[groups[0].tag] + CasesOf(groups[1..], buckets)
  }

  /** The number of cases held by the buckets of the listed groups. */
  function CountOf(groups: seq<Group>, buckets: map<string, seq<TestCase>>): nat
    requires forall g :: g in groups ==> g.tag in buckets
  {
    if |groups| == 0 then 0 else |buckets[groups[0].tag]| + CountOf(groups[1..], buckets)
  }

  /** The snapshot handed to the emitters. */
  function AllCases(reg: Registry): (cases: seq<TestCase>)
    requires Valid(reg)
    ensures |cases| == CountOf(reg.groups, reg.buckets)
  {
    CasesCount(reg.groups, reg.buckets);
    CasesOf(reg.groups, reg.buckets)
  }

  lemma {:induction false} CasesCount(groups: seq<Group>, buckets: map<string, seq<TestCase>>)
    requires forall g :: g in groups ==> g.tag in buckets
    ensures |CasesOf(groups, buckets)| == CountOf(groups, buckets)
  {
    if |groups| > 0 {
      CasesCount(groups[1..], buckets);
    }
  }

  /** A bucket that no listed group uses does not affect the cases of the listed groups. */
  lemma {:induction false} CasesIgnoreOtherBucket(
    groups: seq<Group>, buckets: map<string, seq<TestCase>>, tag: string, cases: seq<TestCase>)
    requires forall g :: g in groups ==> g.tag in buckets && g.tag != tag
    ensures CasesOf(groups, buckets[tag := cases]) == CasesOf(groups, buckets)
  {
    if |groups| > 0 {
      CasesIgnoreOtherBucket(groups[1..], buckets, tag, cases);
    }
  }

  /**
   Appending a case to the bucket of the one group `p` with that tag inserts
   it right after the cases of groups `0..p`, leaving the order of the
   others unchanged.
   */
  lemma {:induction false} CasesAfterAppend(
    groups: seq<Group>, buckets: map<string, seq<TestCase>>, p: nat, tc: TestCase)
    requires forall g :: g in groups ==> g.tag in buckets
    requires p < |groups|
    requires forall q :: 0 <= q < |groups| && q != p ==> groups[q].tag != groups[p].tag
    ensures var tag := groups[p].tag;
            var before := CasesOf(groups, buckets);
            var k := |CasesOf(groups[..p + 1], buckets)|;
            k <= |before|
            && CasesOf(groups, buckets[tag := buckets[tag] + [tc]]) == before[..k] + [tc] + before[k..]
  {
    TailKeepsBuckets(groups, buckets);
    if p == 0 {
      CasesAfterAppendHead(groups, buckets, tc);
    } else {
      TailKeepsUniqueTag(groups, p);
      CasesAfterAppend(groups[1..], buckets, p - 1, tc);
      CasesOfPrefix(groups, buckets, p);
      InsertShifted(buckets[groups[0].tag], CasesOf(groups[1..], buckets), |CasesOf(groups[1..][..p], buckets)|, tc);
    }
  }

  lemma CasesAfterAppendHead(groups: seq<Group>, buckets: map<string, seq<TestCase>>, tc: TestCase)
    requires forall g :: g in groups ==> g.tag in buckets
    requires 0 < |groups|
    requires forall q :: 0 <= q < |groups| && q != 0 ==> groups[q].tag != groups[0].tag
    ensures var tag := groups[0].tag;
            var before := CasesOf(groups, buckets);
            var k := |CasesOf(groups[..1], buckets)|;
            k <= |before|
            && CasesOf(groups, buckets[tag := buckets[tag] + [tc]]) == before[..k] + [tc] + before[k..]
  {
    var tag := groups[0].tag;
    HeadTagAbsentFromTail(groups, buckets);
    CasesIgnoreOtherBucket(groups[1..], buckets, tag, buckets[tag] + [tc]);
    CasesOfOne(groups, buckets);
    InsertAfterHead(buckets[tag], CasesOf(groups[1..], buckets), tc);
  }

  lemma TailKeepsBuckets(groups: seq<Group>, buckets: map<string, seq<TestCase>>)
    requires |groups| > 0 && forall g :: g in groups ==> g.tag in buckets
    ensures forall g :: g in groups[1..] ==> g.tag in buckets
  {
    assert forall g :: g in groups[1..] ==> g in groups;
  }

  lemma HeadTagAbsentFromTail(groups: seq<Group>, buckets: map<string, seq<TestCase>>)
    requires |groups| > 0 && forall g :: g in groups ==> g.tag in buckets
    requires forall q :: 0 <= q < |groups| && q != 0 ==> groups[q].tag != groups[0].tag
    ensures forall g :: g in groups[1..] ==> g.tag in buckets && g.tag != groups[0].tag
  {
    forall g | g in groups[1..]
      ensures g.tag in buckets && g.tag != groups[0].tag
    {
      var q :| 0 <= q < |groups[1..]| && groups[1..][q] == g;
      assert groups[q + 1] == g;
    }
  }

  lemma TailKeepsUniqueTag(groups: seq<Group>, p: nat)
    requires 0 < p < |groups|
    requires forall q :: 0 <= q < |groups| && q != p ==> groups[q].tag != groups[p].tag
    ensures forall q :: 0 <= q < |groups[1..]| && q != p - 1 ==> groups[1..][q].tag != groups[1..][p - 1].tag
  {
    forall q | 0 <= q < |groups[1..]| && q != p - 1
      ensures groups[1..][q].tag != groups[1..][p - 1].tag
    {
      assert groups[1..][q] == groups[q + 1];
    }
  }

  lemma CasesOfOne(groups: seq<Group>, buckets: map<string, seq<TestCase>>)
    requires |groups| > 0 && groups[0].tag in buckets
    ensures CasesOf(groups[..1], buckets) == buckets[groups[0].tag]
  {
    assert groups[..1] == [groups[0]];
    assert [groups[0]][1..] == [];
  }

  lemma CasesOfPrefix(groups: seq<Group>, buckets: map<string, seq<TestCase>>, p: nat)
    requires p < |groups| && forall g :: g in groups ==> g.tag in buckets
    ensures CasesOf(groups[..p + 1], buckets)
         == buckets[groups[0].tag] + CasesOf(groups[1..][..p], buckets)
  {
    assert forall g :: g in groups[..p + 1] ==> g in groups;
    assert forall g :: g in groups[1..][..p] ==> g in groups;
    assert groups[..p + 1][1..] == groups[1..][..p];
  }

  lemma InsertAfterHead(head: seq<TestCase>, tail: seq<TestCase>, tc: TestCase)
    ensures var all := head + tail;
            (head + [tc]) + tail == all[..|head|] + [tc] + all[|head|..]
  {
    var all := head + tail;
    assert all[..|head|] == head;
    assert all[|head|..] == tail;
  }

  lemma InsertShifted(head: seq<TestCase>, tail: seq<TestCase>, k: nat, tc: TestCase)
    requires k <= |tail|
    ensures var all := head + tail;
            head + (tail[..k] + [tc] + tail[k..]) == all[..|head| + k] + [tc] + all[|head| + k..]
  {
    var all := head + tail;
    assert all[..|head| + k] == head + tail[..k];
    assert all[|head| + k..] == tail[k..];
  }

  /** No two groups share a tag. */
  predicate DistinctTags(groups: seq<Group>)
  {
    forall i, j :: 0 <= i < j < |groups| ==> groups[i].tag != groups[j].tag
  }

  /** The declared groups have distinct tags. */
  lemma DeclaredGroupsDistinct(dataTablesUrl: string)
    ensures DistinctTags(DeclaredGroups(dataTablesUrl))
  {
  }

  /**
   A successful `writeTest` inserts the new case into the `allGroups()`
   listing right after the cases of its own group and every group declared
   before it; all other cases keep their relative order.
   */
  lemma WrittenInsertsCase(
    reg: Registry, identifier: string, title: string, description: string,
    specLink: Option<string>, shouldConvert: bool, expandSpecLinks: Option<string> -> string, p: nat)
    requires Valid(reg) && DistinctTags(reg.groups)
    requires p < |reg.groups| && reg.groups[p].tag == GroupTag(identifier)
    requires WriteTest(reg, identifier, title, description, Built, specLink, shouldConvert, expandSpecLinks).Written?
    ensures var out := WriteTest(reg, identifier, title, description, Built, specLink, shouldConvert, expandSpecLinks);
            var before := AllCases(reg);
            var k := |CasesOf(reg.groups[..p + 1], reg.buckets)|;
            && Valid(out.reg)
            && k <= |before|
            && AllCases(out.reg)
               == before[..k] + [TestCase(identifier, title, description, shouldConvert, expandSpecLinks(specLink))] + before[k..]
  {
    var out := WriteTest(reg, identifier, title, description, Built, specLink, shouldConvert, expandSpecLinks);
    var tc := TestCase(identifier, title, description, shouldConvert, expandSpecLinks(specLink));
    WriteTestPreservesValid(reg, identifier, title, description, Built, specLink, shouldConvert, expandSpecLinks);
    forall q | 0 <= q < |reg.groups| && q != p
      ensures reg.groups[q].tag != reg.groups[p].tag
    {
      if q < p {
        assert reg.groups[q].tag != reg.groups[p].tag;
      } else {
        assert reg.groups[p].tag != reg.groups[q].tag;
      }
    }
    CasesAfterAppend(reg.groups, reg.buckets, p, tc);
  }
}

=== FILE: results.dfy ===
/** Failure-carrying values shared by every module of the model. */
module Results {

  /** A value that may be absent (a JavaScript `undefined`, a missing key). */
  datatype Option<+T> = None | Some(value: T)

  /** The outcome of an operation that either yields a value or raises an error. */
  datatype Result<+T, +E> = Ok(value: T) | Err(error: E)
}

=== FILE: text.dfy ===
/**
 Python string helpers used by the generators: `str.split` and `sep.join`
 with a one-character separator, the first and last pieces of a split,
 `str.rfind`, and substring containment. Strings are sequences of characters.
 */
module Text {

  /** `s.split(c)`: the maximal pieces of `s` between occurrences of `c`. */
  function Split(s: string, c: char): (parts: seq<string>)
    ensures |parts| >= 1
  {
    if |s| == 0 then [""]
    else
      var rest := Split(s[1..], c);
      if s[0] == c then [""] + rest else [[s[0]] + rest[0]] + rest[1..]
  }

  /** `sep.join(parts)` for a one-character separator. */
  function Join(parts: seq<string>, c: char): string
  {
    if |parts| == 0 then ""
    else if |parts| == 1 then parts[0]
    else parts[0] + [c] + Join(parts[1..], c)
  }

  /** A join ends with the last character of its last piece, when that piece is non-empty. */
  lemma {:induction false} JoinEndsLikeLast(parts: seq<string>, c: char)
    requires |parts| >= 1 && |parts[|parts| - 1]| > 0
    ensures var j := Join(parts, c); var l := parts[|parts| - 1];
            |j| > 0 && j[|j| - 1] == l[|l| - 1]
  {
    if |parts| > 1 {
      JoinEndsLikeLast(parts[1..], c);
    }
  }

  /** A separator-free text splits into itself alone. */
  lemma {:induction false} SplitFree(s: string, c: char)
    requires c !in s
    ensures Split(s, c) == [s]
  {
    if |s| > 0 {
      SplitFree(s[1..], c);
      assert [s[0]] + s[1..] == s;
    }
  }

  /** A separator-free piece followed by `c` is split off as the first piece. */
  lemma {:induction false} SplitAtFirst(p: string, c: char, y: string)
    requires c !in p
    ensures Split(p + [c] + y, c) == [p] + Split(y, c)
  {
    var s := p + [c] + y;
    if |p| == 0 {
      assert s[1..] == y;
    } else {
      assert s[1..] == p[1..] + [c] + y;
      SplitAtFirst(p[1..], c, y);
      assert [p[0]] + p[1..] == p;
    }
  }

  /** Splitting a join of separator-free pieces gives back the pieces. */
  lemma {:induction false} SplitJoin(parts: seq<string>, c: char)
    requires |parts| >= 1
    requires forall n :: 0 <= n < |parts| ==> c !in parts[n]
    ensures Split(Join(parts, c), c) == parts
  {
    if |parts| == 1 {
      SplitFree(parts[0], c);
    } else {
      SplitJoin(parts[1..], c);
      SplitAtFirst(parts[0], c, Join(parts[1..], c));
      assert [parts[0]] + parts[1..] == parts;
    }
  }

  /** No piece of a split contains the separator. */
  lemma {:induction false} SplitPiecesFree(s: string, c: char)
    ensures forall n :: 0 <= n < |Split(s, c)| ==> c !in Split(s, c)[n]
  {
    if |s| > 0 {
      SplitPiecesFree(s[1..], c);
    }
  }

  /** Joining the pieces of a split gives back the original text. */
  lemma {:induction false} JoinSplit(s: string, c: char)
    ensures Join(Split(s, c), c) == s
  {
    if |s| > 0 {
      var rest := Split(s[1..], c);
      JoinSplit(s[1..], c);
      if s[0] == c {
        assert Join([""] + rest, c) == [c] + Join(rest, c) by {
          assert ([""] + rest)[1..] == rest;
        }
      } else if |rest| == 1 {
        assert Join([[s[0]] + rest[0]], c) == [s[0]] + rest[0];
      } else {
        var parts := [[s[0]] + rest[0]] + rest[1..];
        assert parts[1..] == rest[1..];
        assert Join(rest, c) == rest[0] + [c] + Join(rest[1..], c);
      }
      assert [s[0]] + s[1..] == s;
    }
  }

  /** `s.split(c)[0]`: the text before the first `c`, or all of `s`. */
  function BeforeFirst(s: string, c: char): (r: string)
    ensures r <= s && c !in r
    ensures r == s || s[|r|] == c
  {
    FirstPieceIsPrefix(s, c);
    Split(s, c)[0]
  }

  /** The text before the first `c` of a separator-free piece followed by `c` is that piece. */
  lemma BeforeFirstOf(p: string, c: char, y: string)
    requires c !in p
    ensures BeforeFirst(p + [c] + y, c) == p
  {
    SplitAtFirst(p, c, y);
  }

  /** The first piece of a split is the longest separator-free prefix. */
  lemma {:induction false} FirstPieceIsPrefix(s: string, c: char)
    ensures var r := Split(s, c)[0];
            r <= s && c !in r && (r == s || s[|r|] == c)
  {
    if |s| > 0 && s[0] != c {
      FirstPieceIsPrefix(s[1..], c);
      var r' := Split(s[1..], c)[0];
      assert Split(s, c)[0] == [s[0]] + r';
      assert [s[0]] + s[1..] == s;
    }
  }

  /** `s.split(c)[-1]`: the text after the last `c`, or all of `s`. */
  function AfterLast(s: string, c: char): string
  {
    Last(Split(s, c))
  }

  /** `s.split(c)[-1]` is the segment of `s` after its last `c`. */
  lemma AfterLastIsLastSegment(s: string, c: char)
    ensures IsLastSegment(s, c, AfterLast(s, c))
  {
    LastPieceIsLastSegment(s, c);
  }

  function Last(parts: seq<string>): string
    requires |parts| >= 1
  {
    parts[|parts| - 1]
  }

  /**
   `r` is the segment of `s` after its last `c`: a suffix free of `c`
   that is either all of `s` or preceded by `c`.
   */
  predicate IsLastSegment(s: string, c: char, r: string)
  {
    && |r| <= |s|
    && r == s[|s| - |r|..]
    && c !in r
    && (|r| == |s| || s[|s| - |r| - 1] == c)
  }

  /** The last piece of a split is the segment after the last separator. */
  lemma {:induction false} LastPieceIsLastSegment(s: string, c: char)
    ensures IsLastSegment(s, c, Last(Split(s, c)))
  {
    if |s| > 0 {
      var t := s[1..];
      LastPieceIsLastSegment(t, c);
      if s[0] == c {
        assert Last(Split(s, c)) == Last(Split(t, c));
        LastSegmentExtends(s, c, Last(Split(t, c)));
      } else if c !in t {
        LastPieceOfFree(s, c);
      } else {
        LastPieceAfterSeparator(s, c);
      }
    }
  }

  /** A text whose separators all come after its first character ends in the same piece as its tail. */
  lemma LastPieceAfterSeparator(s: string, c: char)
    requires |s| > 0 && s[0] != c && c in s[1..]
    requires IsLastSegment(s[1..], c, Last(Split(s[1..], c)))
    ensures IsLastSegment(s, c, Last(Split(s, c)))
  {
    var t := s[1..];
    var rest := Split(t, c);
    SplitPiecesFree(t, c);
    JoinSplit(t, c);
    assert |rest| >= 2;
    assert Last(Split(s, c)) == Last(rest);
    assert t[|t| - |t|..] == t;
    LastSegmentExtends(s, c, Last(rest));
  }

  /** The last piece of a split of `s` whose tail is separator-free is all of `s`. */
  lemma LastPieceOfFree(s: string, c: char)
    requires |s| > 0 && s[0] != c && c !in s[1..]
    ensures IsLastSegment(s, c, Last(Split(s, c)))
  {
    SplitFree(s[1..], c);
    assert [s[0]] + s[1..] == s;
    assert Last(Split(s, c)) == s;
  }

  /** A last segment of `s[1..]` is one of `s` too, when it is shorter than `s[1..]` or `s[0]` is `c`. */
  lemma LastSegmentExtends(s: string, c: char, r: string)
    requires |s| > 0 && IsLastSegment(s[1..], c, r)
    requires |r| < |s| - 1 || s[0] == c
    ensures IsLastSegment(s, c, r)
  {
    assert s[1..][|s| - 1 - |r|..] == s[|s| - |r|..];
    if |r| < |s| - 1 {
      assert s[|s| - |r| - 1] == s[1..][|s| - |r| - 2];
    }
  }

  /** The last segment is unique: after `x + [c]`, a separator-free `a` is it. */
  lemma LastSegmentUnique(x: string, c: char, a: string, r: string)
    requires c !in a && IsLastSegment(x + [c] + a, c, r)
    ensures r == a
  {
    var s := x + [c] + a;
    assert s[|x|] == c;
    assert s[|s| - |a|..] == a;
  }

  /** Index of the last `c` in `s[..n]`, or -1. */
  function RFindBefore(s: string, c: char, n: nat): (i: int)
    requires n <= |s|
    ensures -1 <= i < n
    ensures forall j :: i < j < n ==> s[j] != c
    ensures i >= 0 ==> s[i] == c
  {
    if n == 0 then -1
    else if s[n - 1] == c then n - 1
    else RFindBefore(s, c, n - 1)
  }

  /** Index of the last occurrence of `c` in `s`, or -1 (`s.rfind(c)`). */
  function RFind(s: string, c: char): (i: int)
    ensures -1 <= i < |s|
    ensures forall j :: i < j < |s| ==> s[j] != c
    ensures i >= 0 ==> s[i] == c
  {
    RFindBefore(s, c, |s|)
  }

  /** Substring containment (JavaScript `s.includes(w)`, Python `w in s`). */
  ghost predicate Contains<T>(s: seq<T>, w: seq<T>)
  {
    exists i :: 0 <= i <= |s| - |w| && OccursAt(s, w, i)
  }

  /** `w` occurs in `s` starting at index `i`. */
  ghost predicate OccursAt<T>(s: seq<T>, w: seq<T>, i: int)
  {
    0 <= i <= |s| - |w| && s[i..i + |w|] == w
  }

  /** The left-to-right search `includes` performs, from index `i` on. */
  function IncludesFrom<T(==)>(s: seq<T>, w: seq<T>, i: nat): bool
    decreases |s| - i
  {
    if i + |w| > |s| then false
    else if s[i..i + |w|] == w then true
    else IncludesFrom(s, w, i + 1)
  }

  /** `s.includes(w)`. */
  function Includes<T(==)>(s: seq<T>, w: seq<T>): bool
  {
    IncludesFrom(s, w, 0)
  }

  /** The search from `i` succeeds exactly when `w` occurs at some index from `i` on. */
  lemma {:induction false} IncludesFromOccurs<T>(s: seq<T>, w: seq<T>, i: nat)
    ensures IncludesFrom(s, w, i) <==> exists j :: i <= j && OccursAt(s, w, j)
    decreases |s| - i
  {
    if i + |w| <= |s| && s[i..i + |w|] != w {
      IncludesFromOccurs(s, w, i + 1);
      if exists j :: i <= j && OccursAt(s, w, j) {
        var j :| i <= j && OccursAt(s, w, j);
        assert j != i;
      }
    } else if i + |w| <= |s| {
      assert OccursAt(s, w, i);
    }
  }

  /** `includes` finds exactly the occurring words. */
  lemma IncludesIsContains<T>(s: seq<T>, w: seq<T>)
    ensures Includes(s, w) <==> Contains(s, w)
  {
    IncludesFromOccurs(s, w, 0);
  }

  /** A word occurring at an index is included. */
  lemma IncludesAt<T>(s: seq<T>, w: seq<T>, i: nat)
    requires i + |w| <= |s| && s[i..i + |w|] == w
    ensures Includes(s, w)
  {
    IncludesFromOccurs(s, w, 0);
    assert OccursAt(s, w, i);
  }
}
